=== FILE: README.md ===
# filesync: the synchronisation engine, modelled in Dafny

`filesync.js` keeps a destination directory tree in step with a source tree.
Every sync pair is reconciled once at start-up with `syncItem("", sync)`;
after that the file watcher calls `syncItem` again for every changed relative
path. This project models that engine:

- `syncItem`:
  - the ignore test on the raw relative path;
  - the rewrite of `\` to `/`;
  - the three cases:
    - source missing: the destination subtree is deleted;
    - source directory: create it if missing, visit each child, then the optional bidirectional clean-up;
    - source file: copy it when the destination is missing or strictly older.
- `createFolder`
- `deleteItem`
- the bounded busy-retry copy loop
- three pure helpers:
  - `fmtPath`
  - `_fmtDateVal`
  - the rule that computes the target name of a configured rename.

Both file trees are pure data: a map from relative path (a sequence of entry
names) to `Dir` or `File(mtime)`. The engine takes the source tree, the
destination tree, the pair's `ignore` list and `bidir` flag, and returns the
new destination tree with the events it reported on `fsync_log`:
`DirCreated`, `FileCopied`, `CopyFailed`, `DirDeleted` and `FileDeleted`.
`readdir` lists entries in an unspecified order. The model therefore visits
children in an order it leaves open, a ghost choice, and every property holds
for every order.

Quirks of the code that the model keeps:

- The `.git` test is `itemPath.search(".git")`. `search` reads its argument as a
  regular expression, so the dot matches any character but a line terminator.
  `legit.txt` and `src/digits` are therefore skipped too. An occurrence of `git`
  at index 0 does not match by itself, because the match needs one character before `git`.
  So `github` alone is not skipped, while `gitlab/legit.txt` is, through its later `git`.
- The ignore list is compared with the raw path, before backslashes become slashes.
- The bidirectional clean-up deletes every destination entry that has no source
  counterpart, without looking at the ignore list.
- A copy into a destination directory that does not exist fails on every
  attempt and ends as a `CopyFailed` report.

Two facts about the deletion code bound what the model covers (see "Left out"):

- When `rmdirSync` fails with `ENOTEMPTY`, `deleteItem` calls itself again on the same path (filesync.js:233-234).
  Nothing bounds the number of such re-entries.
  Any other `rmdirSync` error is swallowed, with no event.
- `unlinkSync` (filesync.js:239) sits outside any `try`, so a failed file deletion throws out of `syncItem`.

The copy is modelled twice:

- `CopyRetry.CopyWithRetry` is the loop itself, as a method with an attempt counter.
- `Engine.CopyFile` applies the loop's verdict, `CopyRetry.CopySucceeds`, inside the engine.

Whether an attempt fails is an oracle: the number of attempts that fail before
the first success. The modification time a copy ends up with is a function
given as a parameter.

## Model

| member | source | states |
|---|---|---|
| Paths.Normalize | filesync.js:148 | every backslash of the relative path becomes a slash; no other character changes and the length is kept |
| Paths.SplitJoin | filesync.js:149-150 | splitting a `/`-joined path at `/` gives back its segments, so the string and segment forms of a relative path are interchangeable |
| Paths.JoinSplit | filesync.js:128 | joining the parts of `split("/")` with `/` gives back the string |
| Paths.ChildRelJoin | filesync.js:171 | the child path `itemPath/name` (just `name` at the root) is the join of the parent's segments and the name |
| Paths.Split | filesync.js:273 | `split("/")` always yields at least one part, and no part holds a separator |
| Paths.Join | filesync.js:274-275 | `join("/")` of the parts; Paths.SplitJoin and Paths.JoinSplit make it the inverse of Paths.Split on separator-free parts |
| Paths.BackslashNameMisread | filesync.js:148-171 | a file `a\b` in directory `x` is visited as `syncItem("x/a\b")`, which the rewrite at line 148 turns into the three segments `x`, `a`, `b`: another entry than the child the listing at line 171 reported |
| Ignore.DotGitIgnored | filesync.js:145 | any path that holds `.git` somewhere is skipped, whatever comes before or after |
| Ignore.LegitIgnored | filesync.js:145 | because `.` is a wildcard in the search pattern, `legit.txt` and `src/digits` are skipped as well |
| Ignore.LeadingGitNotIgnored | filesync.js:145 | `github` at the root is not skipped: the pattern needs one character before `git` |
| Ignore.IgnoreBeforeNormalize | filesync.js:144-148 | the ignore list is matched before backslashes are rewritten: with `a/b` ignored, `a\b` is still synced although it names the same entry |
| Ignore.HasGitMarker | filesync.js:145 | `search(".git")` needs a character before `git`, so a path the marker test catches has at least four characters |
| Ignore.Ignored | filesync.js:144-146 | a path listed verbatim in the ignore list is skipped; any other skipped path is caught by the marker test and so has at least four characters |
| Ignore.MarkerInherited | filesync.js:145 | once a path holds the marker, every string that extends it does too, so the marker test skips everything below a skipped directory |
| Engine.SyncItem | filesync.js:141-160 | an ignored path changes nothing and reports nothing; otherwise the trees stay well-formed, kinds keep agreeing, only the subtree at the path (plus missing ancestors it creates) changes, and every entry added, replaced or removed is reported with its event |
| Engine.SyncChild | filesync.js:168-172 | calling `syncItem` on the child path string is the ignore test on that string, then reconciliation of the child entry |
| Engine.Reconcile | filesync.js:149-212 | a vanished source path cuts the destination subtree; a source directory ends up as a destination directory; with `bidir` off, destination-only entries survive; with it on, the directory ends up listing no name its source lacks; nothing outside the path's subtree changes, every event is about that subtree or a created ancestor, and every entry added, replaced or removed is reported: a deletion for a removed one, a creation for a new directory, a copy for a new or replaced file; Rules.IgnoredKeptByReconcile adds that ignored subtrees below the path are kept |
| Engine.VisitChildren | filesync.js:168-172 | visiting the source children changes and reports only entries under the visited children, keeps the directory itself, leaves destination-only entries alone with `bidir` off, and reports every entry it adds, replaces or removes with its event; Rules.IgnoredKeptByVisit adds that ignored subtrees among the children are kept |
| Engine.Prune | filesync.js:174-183 | the clean-up removes exactly the subtrees of the listed destination entries whose source entry is missing; its log names exactly the removed entries, each once, with its kind, children before their directory; everything else is kept |
| Engine.MakeDir | filesync.js:164-166 | a source directory missing at the destination is created together with its missing ancestors; nothing existing changes, only prefixes of the path are added, and the log is one creation per directory made, outermost first |
| Engine.CopyFile | filesync.js:187-209 | a copy attempt keeps the destination well-formed and in kind agreement, because it only lands in an existing directory; no entry other than the file changes; the single event is about the file, and a changed file is reported as copied. Whether the copy lands is CopyRetry.CopySucceeds, whose agreement with the loop CopyRetry.CopyWithRetry proves |
| CopyRetry.CopyWithRetry | filesync.js:189-209 | the loop, with its one counter `nTimes`, always ends after between 1 and 5001 attempts; it reports a copy exactly when at most 5000 attempts fail (after failures + 1 attempts), and otherwise reports the failure after 5001 |
| CopyRetry.CopySucceeds | filesync.js:203 | the verdict of the loop: a copy is reported exactly when at most 5000 attempts fail; CopyRetry.CopyWithRetry proves the loop agrees |
| Folders.CreateFrom | filesync.js:131-139 | the walk from prefix length `i` makes every missing prefix from `i` on as a directory, keeps every existing entry, and reports one creation per directory made, in increasing depth |
| Folders.CreateFolder | filesync.js:126-140 | afterwards the path and all its ancestors are directories, nothing existing changed, only prefixes of the path were added, and the log names exactly the added directories, outermost first |
| Deletion.DeleteItem | filesync.js:213-244 | the subtree at the path is removed and nothing else changes; the log reports each removed entry exactly once, with its kind, and children before their directory |
| Deletion.DeleteChildren | filesync.js:220-224 | deleting the listed children removes exactly their subtrees and reports exactly their entries, children first |
| Rules.FileRule | filesync.js:185-209 | a source file is acted on exactly when its destination is missing or strictly older; then one copy or copy-failed event is reported, and only a reported copy changes the destination |
| Rules.AbsentBothSides | filesync.js:213-215 | a path missing on both sides is left alone, with no event |
| Rules.AbsentSourceDeletes | filesync.js:155-159 | a vanished source path removes exactly the destination entries at and below it, children before parents, and keeps the rest unchanged |
| Rules.OrphanRemoved | filesync.js:175-183 | with `bidir` on, a destination child without a source counterpart is gone after its directory is synced, even if the ignore test would skip it |
| Rules.IgnoredKeptByVisit | filesync.js:169-172 | the loop over a source directory's children leaves the destination subtree at every ignored path below the directory exactly as it was (in the source or with the clean-up off), whichever order the listing takes |
| Rules.IgnoredKeptByReconcile | filesync.js:141-184 | a pass over an existing source path leaves the destination subtree at an ignored path below it unchanged, provided that path exists in the source or the clean-up is off: every call on the way down reaches it only through line 171, and the call on it returns at line 145 |
| Rules.IgnoredKeptBySync | filesync.js:91 | when the source root exists, the initial `syncItem("", sync)` keeps the destination's own subtree at every ignored source path, such as a local `config.json` on the ignore list; with the clean-up off, at every ignored path |
| Rules.NoCleanupKeeps | filesync.js:175 | with `bidir` off, a destination entry without a source counterpart is never touched by a pass over an existing source path |
| Convergence.ReconcileConverges | filesync.js:141-212 | if every copy succeeds and copies are never older than their source, a pass over a path whose destination parent directory exists (or over the root) leaves it converged: every visible source directory exists, every visible source file exists and is at least as new as its source, and with `bidir` no extra names remain |
| Convergence.ConvergedIsFixpoint | filesync.js:141-212 | on a converged destination a pass changes nothing and reports nothing |
| Convergence.Convergence | filesync.js:91 | under the same assumptions the initial sync mirrors every source entry none of whose prefixes is ignored: its kind at the destination, and for a file an mtime at least the source's |
| Convergence.Idempotence | filesync.js:91 | a second initial sync right after the first reports no event and changes nothing |
| PathParse.ParseJoined | filesync.js:272 | `path.parse` of `dir + "/" + base`, for a non-empty `dir` and a non-empty base without separator, gives back `dir` and `base` |
| PathParse.DirOf | filesync.js:272 | `dir` is empty exactly when the string holds no separator; otherwise the string is `dir`, `/` and `base`, or `dir` is the root `/` directly followed by `base` |
| PathParse.BaseOf | filesync.js:272 | `base` holds no separator |
| PathParse.ExtOf | filesync.js:30-31 | `ext` is a suffix of the base, empty or starting with a dot |
| PathParse.NameOf | filesync.js:32-33 | `name` followed by `ext` is the base again |
| PathParse.SplitExtJoined | filesync.js:32-33 | a dot-free name followed by an empty or one-dot extension parses back into that name and extension |
| Format.FmtPathAbbreviates | filesync.js:272-276 | the template's null test comes down to the directory having more than six segments, and `name + ext` is the base name |
| Format.FmtPath | filesync.js:270-277 | the shown form of a path: its directory part, cut to four leading and three trailing segments around `...` when it has more than six, then `/` and `name + ext`; the Format lemmas state its properties |
| Format.FmtPathEndsWithBase | filesync.js:276 | whatever the depth, the shown path ends with `/` and the entry's base name |
| Format.FmtPathShallow | filesync.js:270-277 | a path with a separator past its first character (so not a bare name and not a name directly in `/`) whose directory part has at most six segments is shown unchanged |
| Format.FmtPathDeep | filesync.js:273-276 | a deeper path is shown as its first four segments, a `...` segment, and its last four segments (the last being the base name) |
| Format.FmtPathIdempotent | filesync.js:270-277 | for a path with a separator past its first character, formatting the formatted path changes nothing (a bare name or a name in `/` gains a slash each time, see Format.FmtPathBareName and Format.FmtPathRootName) |
| Format.FmtPathBareName | filesync.js:272-276 | a bare name is shown with a leading `/`, because its directory part is empty |
| Format.FmtPathRootName | filesync.js:272-276 | a name in the root directory is shown with two leading slashes |
| Format.FmtDateVal | filesync.js:278-281 | the field is spelt in decimal with at least two digits; it has exactly two when the value is below 100; there is a leading zero exactly when the value is below ten; reading the digits back gives the value |
| Rename.RenameTarget | filesync.js:30-33 | the target stays in the source's directory, and its base name is the chosen name followed by the chosen extension |
| Rename.StarKeepsBase | filesync.js:32-33 | a requested name of `*` keeps the source's whole base name |
| Rename.StarExtension | filesync.js:32-33 | a requested `*.ext` keeps the source's name and replaces its extension |
| Rename.PlainNameKeepsExtension | filesync.js:32-33 | a requested name without an extension keeps the source's extension |

## Left out

- The file watcher, `startSyncs`/`stopSyncs` and the close events (filesync.js:78-125): asynchronous operating-system callbacks.
  Each watcher callback is one `syncItem` call, which is modelled.
- Git cloning through `child_process` and the promise chain around it (filesync.js:40-76): external processes.
- The renaming itself, `renameItem`, and the `itemExists` guard around it (filesync.js:28, 34, 245-248): file-system effects.
  Only the computation of the target name is modelled.
- `processConfigFile`, the JSON configuration and the stdin command loop (filesync.js:290-360): input and output.
- `fmtLogMessage` and `log` (filesync.js:263-269, 282-289): they read the clock, call `JSON.stringify` and print. `_fmtDateVal` is modelled.
- `paths.resolve` of the roots and of the rename paths: the model takes the resolved paths as given.
  The roots are disjoint absolute paths, and the rename paths are absolute with no trailing slash.
- Failing directory creation and listing: every `mkdirSync` (filesync.js:136) and `readdirSync` (filesync.js:169, 177, 220) succeeds in the model.
  In the code none of them sits in a `try`, so a failure such as `EACCES`, `EROFS` or `ENOSPC` throws out of `syncItem`.
  For the initial `syncItem("", sync)` (filesync.js:91), which is outside the `try` at filesync.js:92, the throw escapes `startSyncs`: the rest of the pass and the remaining sync pairs of the same `map` are abandoned.
- Failing `stat` (filesync.js:249-261): `itemExists` turns every `statSync` error into "absent", and a model tree cannot hold an entry that is listed but cannot be stat-ed.
  In the code, the children of a source directory that is readable but not searchable are listed, then each counts as missing, and `deleteItem` removes their destination copies even with `bidir` off.
- Failing removals (filesync.js:226-239): every `unlinkSync` and `rmdirSync` succeeds in the model.
  In the code the `ENOTEMPTY` re-entry fires when entries appear during the deletion.
  It also fires when a nested `rmdirSync` failed with an error the `catch` swallows (`EACCES`, `EPERM`, `EBUSY`).
  The directory then stays non-empty, and the re-entry recurses without bound.
  A failing `unlinkSync` throws out of `syncItem`.
- The `stat`/`lstat` distinction and symbolic links: the trees hold only directories and regular files.
- Floating-point `mtimeMs`: timestamps are natural numbers.
- The real causes of a failed copy attempt (a lock, a vanished source): an oracle counts the failing attempts instead.
  The mtime a copy ends up with is a parameter.
- Directories above the destination root, which `createFolder` also walks: they are assumed to exist.
- Engine.Reconcile: requires the kinds of entries present on both sides to agree, at every path, ignored ones included.
  A `.git` file opposite a `.git` directory (a submodule checkout) is therefore outside the model, although the code never looks at either.
  A mismatch does not always throw in the code:
  - A source file opposite a destination directory is compared with the directory's mtime.
    Either nothing happens, or `copyFileSync` fails 5001 times and one copy-failure event is emitted.
  - A source directory opposite a destination file throws from `mkdirSync` when a child directory must be created.
    With `bidir` on it also throws from `readdirSync(destPath)` (filesync.js:177).
    Its file children end as copy failures.
  - `deleteItem` branches on `lstat`, so `unlinkSync` never throws because of a kind mismatch.
- Engine.SyncItem: a relative path handed in by the watcher must name entries in canonical form.
  That means non-empty names, no `.` or `..`, no empty segment, and no backslash in a name.
  The model does not cover other strings.
- Format.FmtPath: strings with a trailing slash, which `path.parse` strips first, are outside the model.
  Only the POSIX flavour of `path.parse` is modelled.
- Convergence.Convergence: proved only for names without a backslash.
  For a source directory `x` holding a file `a\b`, the code calls `syncItem("x/a\b")`, which acts on `x/a/b` (Paths.BackslashNameMisread).
  It deletes the destination's `x/a/b`, even with `bidir` off, and never copies `a\b`.
- Rules.NoCleanupKeeps: proved only for names without a backslash.
  In the example above, the destination's `x/a/b` has no source counterpart and is deleted with `bidir` off.
- Convergence.Convergence: proved only when every copy succeeds within the retry budget and a copy's mtime is at least its source's.
  A failing copy leaves the destination stale until a later call, and that is all the code promises.
- Format.FmtDateVal: always returns the digit string. For values of 10 and above the code returns the number itself, and the calling template spells that number in decimal.
  Negative values are not modelled, because date fields are never negative.
- Rename.RenameTarget: the directory and base name are promised only when the chosen name and extension are not both empty.
  A requested name of `/` for an entry without an extension gives a target that ends in a separator.
- Rename.StarKeepsBase: requires the entry not to be the root `/`, whose base name is empty.
- Rename.PlainNameKeepsExtension: requires the requested name not to be the root `/`, whose base name is empty.
- PathParse.ParseJoined: requires a non-empty base, because Node strips a trailing separator before parsing.
  It also requires a non-empty `dir`: for `dir = ""` the string is `/base`, whose parsed `dir` is `/`.
- Convergence.ReconcileConverges: requires the destination parent of the path to exist, or the path to be the root.
  A call on a file whose destination directory is missing fails every copy attempt and ends with a copy-failure report, in the code as in the model.

=== FILE: convergence.dfy ===
/**
 Convergence and idempotence of the initial sync `syncItem("", sync)`.

 Under the assumptions that every copy eventually succeeds within the retry
 budget and that a copied file is never older than its source, one pass
 mirrors every source entry that is not ignored, and a second pass over the
 result changes nothing and reports nothing.
 */
module Convergence {
  import opened Paths
  import opened FileTree
  import opened Ignore
  import opened CopyRetry
  import opened Deletion
  import opened Engine

  /** Every copy succeeds within the retry budget. */
  predicate CopiesSucceed(env: Env) {
    forall q :: q in env.failures ==> CopySucceeds(env.failures[q])
  }

  /** A copied file is at least as new as its source. */
  ghost predicate StampsForward(env: Env) {
    forall m: nat :: env.stamp(m) >= m
  }

  /** The destination holds `q` with the kind of its source, and a file no older than its source. */
  predicate Mirrors(s: Tree, d: Tree, q: Path)
    requires q in s
  {
    && q in d
    && (s[q].Dir? ==> d[q].Dir?)
    && (s[q].File? ==> d[q].File? && d[q].mtime >= s[q].mtime)
  }

  /** No prefix of `q` (the root included) is skipped by the ignore test. */
  predicate Visible(cfg: Config, q: Path) {
    forall i :: 0 <= i <= |q| ==> !Ignored(cfg, Join(q[..i]))
  }

  /** The destination at `p` is what a pass of `syncItem` over `p` leaves
      behind when nothing fails: nothing left to delete, copy, make or prune. */
  ghost predicate Converged(s: Tree, d: Tree, cfg: Config, p: Path)
    decreases Below(s, p)
  {
    if p !in s then p !in d
    else if s[p].File? then p in d && d[p].File? && d[p].mtime >= s[p].mtime
    else
      && p in d && d[p] == Dir
      && (cfg.bidir ==> ChildNames(d, p) <= ChildNames(s, p))
      && forall n :: n in ChildNames(s, p) && !Ignored(cfg, Join(Child(p, n))) ==>
           (BelowShrinks(s, p, Child(p, n)); Converged(s, d, cfg, Child(p, n)))
  }

  /** Convergence at `p` depends only on the destination at and below `p`. */
  lemma {:induction false} ConvergedLocal(s: Tree, d1: Tree, d2: Tree, cfg: Config, p: Path)
    requires Converged(s, d1, cfg, p)
    requires SameBelow(d1, d2, p)
    ensures Converged(s, d2, cfg, p)
    decreases Below(s, p)
  {
    assert IsPrefix(p, p);
    if p in s && s[p].Dir? {
      forall n | n in ChildNames(d2, p)
        ensures n in ChildNames(d1, p)
      {
        assert IsPrefix(p, Child(p, n));
      }
      forall n | n in ChildNames(s, p) && !Ignored(cfg, Join(Child(p, n)))
        ensures Converged(s, d2, cfg, Child(p, n))
      {
        var c := Child(p, n);
        BelowShrinks(s, p, c);
        forall q | IsPrefix(c, q)
          ensures IsPrefix(p, q)
        {
          assert q[..|p|] == q[..|c|][..|p|];
        }
        ConvergedLocal(s, d1, d2, cfg, c);
      }
    }
  }

  /** A pass over `p` leaves it converged, provided the destination directory
      of `p` exists (always so for the root and for the children the recursion visits). */
  lemma {:induction false} ReconcileConverges(s: Tree, d: Tree, cfg: Config, env: Env, p: Path)
    requires WellFormed(s) && WellFormed(d) && KindsAgree(s, d)
    requires CopiesSucceed(env) && StampsForward(env)
    requires InDirectory(d, p)
    ensures Converged(s, Reconcile(s, d, cfg, env, p).dest, cfg, p)
    decreases Below(s, p), 2
  {
    if p in s && s[p].File? {
      if p !in d || s[p].mtime > d[p].mtime {
        assert FailuresAt(env, p) <= MaxFailures;
        assert env.stamp(s[p].mtime) >= s[p].mtime;
      }
    } else if p in s {
      DirectoryConverges(s, d, cfg, env, p);
    }
  }

  /** The directory case: every visible child converges during the visit, and
      the clean-up that follows deletes only entries without a source counterpart. */
  lemma {:induction false} DirectoryConverges(s: Tree, d: Tree, cfg: Config, env: Env, p: Path)
    requires WellFormed(s) && WellFormed(d) && KindsAgree(s, d)
    requires CopiesSucceed(env) && StampsForward(env)
    requires p in s && s[p].Dir?
    ensures Converged(s, Reconcile(s, d, cfg, env, p).dest, cfg, p)
    decreases Below(s, p), 1
  {
    var r := Reconcile(s, d, cfg, env, p);
    var made := if p in d then Outcome(d, []) else MakeDir(s, d, p);
    var names := ChildNames(s, p);
    var visited := VisitChildren(s, made.dest, cfg, env, p, names);
    var pruned := if cfg.bidir then Prune(s, visited.dest, p, ChildNames(visited.dest, p)) else Outcome(visited.dest, []);
    assert r.dest == pruned.dest;
    VisitConverges(s, made.dest, cfg, env, p, names);
    forall n | n in names && !Ignored(cfg, Join(Child(p, n)))
      ensures Converged(s, r.dest, cfg, Child(p, n))
    {
      if cfg.bidir {
        KeptChild(s, visited.dest, r.dest, p, n, Orphans(s, p, ChildNames(visited.dest, p)));
      }
      ConvergedLocal(s, visited.dest, r.dest, cfg, Child(p, n));
    }
  }

  /** The clean-up of `p` leaves the subtree of a child with a source counterpart alone. */
  lemma KeptChild(s: Tree, d: Tree, d': Tree, p: Path, n: string, orphans: set<string>)
    requires CutUnder(d, d', p, orphans)
    requires n !in orphans
    ensures SameBelow(d, d', Child(p, n))
  {
    var c := Child(p, n);
    forall q | IsPrefix(c, q)
      ensures !UnderAny(p, orphans, q)
    {
      assert q[..|p|] == q[..|c|][..|p|];
      assert q[|p|] == q[..|c|][|p|];
    }
  }

  /** Visiting the children `names` leaves each of them that is not ignored converged. */
  lemma {:induction false} VisitConverges(s: Tree, d: Tree, cfg: Config, env: Env, p: Path, names: set<string>)
    requires WellFormed(s) && WellFormed(d) && KindsAgree(s, d)
    requires CopiesSucceed(env) && StampsForward(env)
    requires p in d && d[p] == Dir
    requires names <= ChildNames(s, p)
    ensures forall n :: n in names && !Ignored(cfg, Join(Child(p, n))) ==>
      Converged(s, VisitChildren(s, d, cfg, env, p, names).dest, cfg, Child(p, n))
    decreases Below(s, p), 0, names
  {
    if names != {} {
      var r := VisitChildren(s, d, cfg, env, p, names);
      var n := Pick(names);
      var c := Child(p, n);
      BelowShrinks(s, p, c);
      var r1 := if Ignored(cfg, Join(c)) then Outcome(d, []) else Reconcile(s, d, cfg, env, c);
      assert c[..|p|] == p;
      if !Ignored(cfg, Join(c)) {
        assert InDirectory(d, c) by {
          assert Parent(c) == p;
        }
        ReconcileConverges(s, d, cfg, env, c);
      }
      ChildStep(d, r1, p, n);
      var r2 := VisitChildren(s, r1.dest, cfg, env, p, names - {n});
      assert r.dest == r2.dest;
      VisitConverges(s, r1.dest, cfg, env, p, names - {n});
      if !Ignored(cfg, Join(c)) {
        SiblingsKeepConverged(s, r1.dest, r2.dest, cfg, p, n, names - {n});
      }
    }
  }

  /** Visiting the other children of `p` leaves a converged child alone. */
  lemma SiblingsKeepConverged(s: Tree, d1: Tree, d2: Tree, cfg: Config, p: Path, n: string, rest: set<string>)
    requires n !in rest
    requires forall q :: q in d1 && !UnderAny(p, rest, q) ==> q in d2 && d2[q] == d1[q]
    requires forall q :: q in d2 && q !in d1 ==> UnderAny(p, rest, q)
    requires Converged(s, d1, cfg, Child(p, n))
    ensures Converged(s, d2, cfg, Child(p, n))
  {
    var c := Child(p, n);
    forall q | IsPrefix(c, q)
      ensures !UnderAny(p, rest, q)
    {
      assert q[|p|] == q[..|c|][|p|];
    }
    ConvergedLocal(s, d1, d2, cfg, c);
  }

  /** On a converged destination a pass over `p` changes nothing and reports nothing. */
  lemma {:induction false} ConvergedIsFixpoint(s: Tree, d: Tree, cfg: Config, env: Env, p: Path)
    requires WellFormed(s) && WellFormed(d) && KindsAgree(s, d)
    requires Converged(s, d, cfg, p)
    ensures Reconcile(s, d, cfg, env, p) == Outcome(d, [])
    decreases Below(s, p), 1
  {
    if p in s && s[p].Dir? {
      var names := ChildNames(s, p);
      forall n | n in names && !Ignored(cfg, Join(Child(p, n)))
        ensures Converged(s, d, cfg, Child(p, n))
      {
        BelowShrinks(s, p, Child(p, n));
      }
      VisitIsFixpoint(s, d, cfg, env, p, names);
      if cfg.bidir {
        PruneIsFixpoint(s, d, p, ChildNames(d, p));
      }
      var none: seq<Event> := [];
      assert none + none + none == none;
    }
  }

  lemma {:induction false} VisitIsFixpoint(s: Tree, d: Tree, cfg: Config, env: Env, p: Path, names: set<string>)
    requires WellFormed(s) && WellFormed(d) && KindsAgree(s, d)
    requires p in d && d[p] == Dir
    requires names <= ChildNames(s, p)
    requires forall n :: n in names && !Ignored(cfg, Join(Child(p, n))) ==> Converged(s, d, cfg, Child(p, n))
    ensures VisitChildren(s, d, cfg, env, p, names) == Outcome(d, [])
    decreases Below(s, p), 0, names
  {
    if names != {} {
      var n := Pick(names);
      var c := Child(p, n);
      BelowShrinks(s, p, c);
      if !Ignored(cfg, Join(c)) {
        ConvergedIsFixpoint(s, d, cfg, env, c);
      }
      VisitIsFixpoint(s, d, cfg, env, p, names - {n});
    }
  }

  /** Clean-up deletes nothing when every listed entry has a source counterpart. */
  lemma {:induction false} PruneIsFixpoint(s: Tree, d: Tree, p: Path, names: set<string>)
    requires WellFormed(s) && WellFormed(d) && KindsAgree(s, d)
    requires forall n :: n in names ==> Child(p, n) in d && Child(p, n) in s
    ensures Prune(s, d, p, names) == Outcome(d, [])
    decreases names
  {
    if names != {} {
      var n := Pick(names);
      PruneIsFixpoint(s, d, p, names - {n});
    }
  }

  /** A converged `p` mirrors every source entry below it that the recursion reaches. */
  lemma {:induction false} ConvergedMirrors(s: Tree, d: Tree, cfg: Config, p: Path, q: Path)
    requires WellFormed(s)
    requires Converged(s, d, cfg, p)
    requires q in s && IsPrefix(p, q)
    requires forall i :: |p| < i <= |q| ==> !Ignored(cfg, Join(q[..i]))
    ensures Mirrors(s, d, q)
    decreases |q| - |p|
  {
    if |q| == |p| {
      assert q == q[..|p|];
    } else {
      AncestorIsDir(s, q, |p|);
      var c := q[..|p| + 1];
      if |q| > |p| + 1 {
        AncestorIsDir(s, q, |p| + 1);
      } else {
        assert c == q;
      }
      assert c == Child(p, q[|p|]);
      assert q[..|c|] == c;
      forall i | |c| < i <= |q|
        ensures !Ignored(cfg, Join(q[..i]))
      {
      }
      BelowShrinks(s, p, c);
      ConvergedMirrors(s, d, cfg, c, q);
    }
  }

  /** The initial sync mirrors every visible source entry: every directory
      exists and every file exists and is at least as new as its source. */
  lemma Convergence(s: Tree, d: Tree, cfg: Config, env: Env)
    requires WellFormed(s) && WellFormed(d) && KindsAgree(s, d)
    requires CopiesSucceed(env) && StampsForward(env)
    ensures ValidRel(Normalize(""))
    ensures forall q :: q in s && Visible(cfg, q) ==> Mirrors(s, SyncItem(s, d, cfg, env, "").dest, q)
  {
    assert Normalize("") == "";
    var r := SyncItem(s, d, cfg, env, "");
    forall q | q in s && Visible(cfg, q)
      ensures Mirrors(s, r.dest, q)
    {
      RootVisible(cfg, q);
      ReconcileConverges(s, d, cfg, env, []);
      ConvergedMirrors(s, r.dest, cfg, [], q);
    }
  }

  /** A visible path has a root that is not ignored. */
  lemma RootVisible(cfg: Config, q: Path)
    requires Visible(cfg, q)
    ensures !Ignored(cfg, "")
  {
    assert q[..0] == [];
  }

  /** A second initial sync right after the first changes nothing and reports nothing. */
  lemma Idempotence(s: Tree, d: Tree, cfg: Config, env: Env)
    requires WellFormed(s) && WellFormed(d) && KindsAgree(s, d)
    requires CopiesSucceed(env) && StampsForward(env)
    ensures ValidRel(Normalize(""))
    ensures var r1 := SyncItem(s, d, cfg, env, "");
            SyncItem(s, r1.dest, cfg, env, "") == Outcome(r1.dest, [])
  {
    assert Normalize("") == "";
    var r1 := SyncItem(s, d, cfg, env, "");
    if !Ignored(cfg, "") {
      ReconcileConverges(s, d, cfg, env, []);
      ConvergedIsFixpoint(s, r1.dest, cfg, env, []);
    }
  }
}

=== FILE: copy.dfy ===
/**
 The copy strategy of `syncItem`: a busy retry loop around open-probe-and-copy.

 Whether an attempt fails (the source still locked, the destination directory
 missing, ...) is not something the model can observe, so it becomes an oracle:
 the number of attempts that fail before the first one that succeeds.
 */
module CopyRetry {
  import opened Paths
  import opened FileTree

  /** The loop gives up once its failure counter exceeds this bound. */
  const MaxFailures: nat := 5000

  /** Whether a copy whose first `failures` attempts fail is eventually reported as copied. */
  predicate CopySucceeds(failures: nat) {
    failures <= MaxFailures
  }

  /** The retry loop for one file at path `p`. Returns the single event it reports and
      how many attempts it made. */
  method CopyWithRetry(p: Path, failures: nat) returns (event: Event, attempts: nat)
    ensures 1 <= attempts <= MaxFailures + 1
    ensures event == FileCopied(p) <==> CopySucceeds(failures)
    ensures event == FileCopied(p) || event == CopyFailed(p)
    ensures CopySucceeds(failures) ==> attempts == failures + 1
    ensures !CopySucceeds(failures) ==> attempts == MaxFailures + 1
  {
    var nTimes := 0;
    while true
      invariant nTimes <= failures && nTimes <= MaxFailures
      decreases MaxFailures - nTimes
    {
      if nTimes == failures {
        // attempt number nTimes + 1 opens and copies the file
        event, attempts := FileCopied(p), nTimes + 1;
        return;
      }
      nTimes := nTimes + 1;
      if nTimes > MaxFailures {
        event, attempts := CopyFailed(p), nTimes;
        return;
      }
    }
  }
}

=== FILE: deletion.dfy ===
/**
 `deleteItem`: removes a destination entry; a directory loses its children
 (each removed the same way) before it is removed itself.

 Every `unlinkSync` and `rmdirSync` succeeds in this model. The source
 re-enters `deleteItem` whenever `rmdirSync` fails with `ENOTEMPTY`: when
 entries appear during the deletion, or when a nested removal failed with an
 error the source swallows, and in the latter case it recurses without
 bound. Neither happens here.
 */
module Deletion {
  import opened Paths
  import opened FileTree

  /** `q` lies strictly below `p`, under one of the entries `names` of `p`. */
  predicate UnderAny(p: Path, names: set<string>, q: Path) {
    |p| < |q| && q[..|p|] == p && q[|p|] in names
  }

  /** The entries at or below `p`. */
  function Subtree(t: Tree, p: Path): set<Path> {
    set q | q in t && IsPrefix(p, q)
  }

  /** `d'` is `d` without the subtree at `p`; everything else is unchanged. */
  predicate CutBelow(d: Tree, d': Tree, p: Path) {
    && (forall q :: q in d' ==> q in d && !IsPrefix(p, q))
    && (forall q :: q in d && !IsPrefix(p, q) ==> q in d')
    && (forall q :: q in d' ==> d'[q] == d[q])
  }

  /** `d'` is `d` without the subtrees of the entries `names` of `p`. */
  predicate CutUnder(d: Tree, d': Tree, p: Path, names: set<string>) {
    && (forall q :: q in d' ==> q in d && !UnderAny(p, names, q))
    && (forall q :: q in d && !UnderAny(p, names, q) ==> q in d')
    && (forall q :: q in d' ==> d'[q] == d[q])
  }

  function DeleteEvent(q: Path, n: Node): Event {
    if n == Dir then DirDeleted(q) else FileDeleted(q)
  }

  /** Every event reports the deletion of an entry of `d`, with its kind. */
  predicate DeletionLog(d: Tree, log: seq<Event>) {
    forall k :: 0 <= k < |log| ==> log[k].path in d && log[k] == DeleteEvent(log[k].path, d[log[k].path])
  }

  /** No event is about the same entry as, or an ancestor of, a later event:
      each entry is reported once, and children before their parent. */
  predicate ChildrenFirst(log: seq<Event>) {
    forall k, l :: 0 <= k < l < |log| ==> !IsPrefix(log[k].path, log[l].path)
  }

  /** A step that only removes entries, and logs the deletion of each removed
      one with its kind, reports every change it makes. */
  lemma RemovalsReported(d: Tree, d': Tree, log: seq<Event>)
    requires forall q :: q in d' ==> q in d && d'[q] == d[q]
    requires DeletionLog(d, log)
    requires forall q :: q in d && q !in d' ==> q in LoggedPaths(log)
    ensures Reported(d, d', log)
  {
    forall q | Changed(d, d', q)
      ensures DirDeleted(q) in log || FileDeleted(q) in log
    {
      assert q in LoggedPaths(log);
      var k :| 0 <= k < |log| && log[k].path == q;
      assert log[k] == DeleteEvent(q, d[q]);
    }
  }

  /** `deleteItem(destPath)`. */
  ghost function DeleteItem(d: Tree, p: Path): (r: Outcome)
    requires WellFormed(d)
    ensures CutBelow(d, r.dest, p)
    ensures WellFormed(r.dest)
    ensures DeletionLog(d, r.log)
    ensures ChildrenFirst(r.log)
    ensures LoggedPaths(r.log) == Subtree(d, p)
    decreases Below(d, p), 1
  {
    if p !in d then
      NoSubtreeBelowLeaf(d, p);
      Outcome(d, [])
    else if d[p].File? then
      NoSubtreeBelowLeaf(d, p);
      LoggedPathsSingle(FileDeleted(p));
      CutKeepsWellFormed(d, d - {p}, p);
      Outcome(d - {p}, [FileDeleted(p)])
    else
      var names := ChildNames(d, p);
      var r := DeleteChildren(d, p, names);
      DirectoryDeleted(d, p, names, r);
      Outcome(r.dest - {p}, r.log + [DirDeleted(p)])
  }

  /** Removing a directory once its children are gone, and reporting it last. */
  lemma DirectoryDeleted(d: Tree, p: Path, names: set<string>, r: Outcome)
    requires WellFormed(d) && p in d && d[p] == Dir
    requires names == ChildNames(d, p)
    requires CutUnder(d, r.dest, p, names)
    requires DeletionLog(d, r.log)
    requires ChildrenFirst(r.log)
    requires LoggedPaths(r.log) == set q | q in d && UnderAny(p, names, q)
    ensures CutBelow(d, r.dest - {p}, p)
    ensures WellFormed(r.dest - {p})
    ensures DeletionLog(d, r.log + [DirDeleted(p)])
    ensures ChildrenFirst(r.log + [DirDeleted(p)])
    ensures LoggedPaths(r.log + [DirDeleted(p)]) == Subtree(d, p)
  {
    DirectoryCut(d, r.dest, p, names);
    var log := r.log + [DirDeleted(p)];
    LoggedPathsAppend(r.log, [DirDeleted(p)]);
    LoggedPathsSingle(DirDeleted(p));
    forall k | 0 <= k < |r.log|
      ensures !IsPrefix(r.log[k].path, p)
    {
      assert r.log[k].path in LoggedPaths(r.log);
    }
    ChildrenFirstAppend(r.log, [DirDeleted(p)]);
    CutKeepsWellFormed(d, r.dest - {p}, p);
    assert log[|r.log|] == DirDeleted(p);
  }

  /** The children `names` of `p`, each through `deleteItem`, in listing order. */
  ghost function DeleteChildren(d: Tree, p: Path, names: set<string>): (r: Outcome)
    requires WellFormed(d)
    requires forall n :: n in names ==> Child(p, n) in d
    ensures CutUnder(d, r.dest, p, names)
    ensures WellFormed(r.dest)
    ensures DeletionLog(d, r.log)
    ensures ChildrenFirst(r.log)
    ensures LoggedPaths(r.log) == set q | q in d && UnderAny(p, names, q)
    decreases Below(d, p), 0, names
  {
    if names == {} then
      Outcome(d, [])
    else
      var n := Pick(names);
      var c := Child(p, n);
      BelowShrinks(d, p, c);
      var r1 := DeleteItem(d, c);
      SiblingsSurvive(d, r1.dest, p, n, names);
      var r2 := DeleteChildren(r1.dest, p, names - {n});
      LoggedPathsAppend(r1.log, r2.log);
      SiblingLogs(d, r1, r2, p, n, names);
      ChildrenFirstAppend(r1.log, r2.log);
      Outcome(r2.dest, r1.log + r2.log)
  }

  /** Nothing lies below a path that is absent or a file. */
  lemma NoSubtreeBelowLeaf(d: Tree, p: Path)
    requires WellFormed(d)
    requires p !in d || d[p].File?
    ensures forall q :: q in d && IsPrefix(p, q) ==> q == p
    ensures Subtree(d, p) == if p in d then {p} else {}
  {
    forall q | q in d && IsPrefix(p, q)
      ensures q == p
    {
      if |q| == |p| {
        assert q == q[..|p|];
      } else {
        AncestorIsDir(d, q, |p|);
      }
    }
  }

  lemma UnderChild(p: Path, n: string, q: Path)
    ensures IsPrefix(Child(p, n), q) <==> UnderAny(p, {n}, q)
  {
    if |q| > |p| && q[..|p|] == p && q[|p|] == n {
      assert q[..|p| + 1] == q[..|p|] + [q[|p|]];
    }
    if IsPrefix(Child(p, n), q) {
      assert q[..|p|] == q[..|p| + 1][..|p|];
    }
  }

  /** Removing a subtree keeps a tree well-formed. */
  lemma CutKeepsWellFormed(d: Tree, d': Tree, p: Path)
    requires WellFormed(d) && CutBelow(d, d', p)
    ensures WellFormed(d')
  {
    forall q | q in d'
      ensures InDirectory(d', q)
    {
      assert InDirectory(d, q);
    }
  }

  /** After the children of a directory are gone, only the directory itself is
      left of its subtree. */
  lemma DirectoryCut(d: Tree, d': Tree, p: Path, names: set<string>)
    requires WellFormed(d) && p in d
    requires names == ChildNames(d, p)
    requires CutUnder(d, d', p, names)
    ensures CutBelow(d, d' - {p}, p)
    ensures (set q | q in d && UnderAny(p, names, q)) + {p} == Subtree(d, p)
    ensures forall q :: q in d && UnderAny(p, names, q) ==> IsStrictPrefix(p, q)
  {
    UnderChildrenIsBelow(d, p);
    var d'' := d' - {p};
    forall q | q in d''
      ensures q in d && !IsPrefix(p, q) && d''[q] == d[q]
    {
      assert !UnderAny(p, names, q);
      assert !IsStrictPrefix(p, q);
      if |q| == |p| {
        assert q == q[..|p|];
      }
    }
    forall q | q in d && !IsPrefix(p, q)
      ensures q in d''
    {
      assert !UnderAny(p, names, q);
    }
    var below := set q | q in d && UnderAny(p, names, q);
    assert below + {p} == Subtree(d, p);
  }

  /** In a well-formed tree, lying under some child of `p` is lying strictly below `p`. */
  lemma UnderChildrenIsBelow(d: Tree, p: Path)
    requires WellFormed(d)
    ensures forall q :: q in d ==> (UnderAny(p, ChildNames(d, p), q) <==> IsStrictPrefix(p, q))
  {
    var names := ChildNames(d, p);
    forall q | q in d
      ensures UnderAny(p, names, q) <==> IsStrictPrefix(p, q)
    {
      if IsStrictPrefix(p, q) {
        if |q| > |p| + 1 {
          AncestorIsDir(d, q, |p| + 1);
        }
        assert q[..|p| + 1] == Child(p, q[|p|]);
      }
    }
  }

  /** Deleting one child leaves the other children of `p` in place. */
  lemma SiblingsSurvive(d: Tree, d': Tree, p: Path, n: string, names: set<string>)
    requires forall m :: m in names ==> Child(p, m) in d
    requires CutBelow(d, d', Child(p, n))
    ensures forall m :: m in names - {n} ==> Child(p, m) in d'
    ensures Below(d', p) < Below(d, p) || n !in names
  {
    forall m | m in names - {n}
      ensures Child(p, m) in d'
    {
      UnderChild(p, n, Child(p, m));
    }
    if n in names {
      forall q | q in Below(d', p) ensures q in Below(d, p) { }
      assert Child(p, n) in Below(d, p);
    }
  }

  /** The log of the first child, then the log of the others, cover the
      children's subtrees, and never mention an ancestor of a later entry. */
  lemma SiblingLogs(d: Tree, r1: Outcome, r2: Outcome, p: Path, n: string, names: set<string>)
    requires n in names
    requires CutBelow(d, r1.dest, Child(p, n))
    requires DeletionLog(d, r1.log) && LoggedPaths(r1.log) == Subtree(d, Child(p, n))
    requires CutUnder(r1.dest, r2.dest, p, names - {n})
    requires DeletionLog(r1.dest, r2.log)
    requires LoggedPaths(r2.log) == set q | q in r1.dest && UnderAny(p, names - {n}, q)
    ensures CutUnder(d, r2.dest, p, names)
    ensures DeletionLog(d, r1.log + r2.log)
    ensures LoggedPaths(r1.log) + LoggedPaths(r2.log) == set q | q in d && UnderAny(p, names, q)
    ensures forall k, l :: 0 <= k < |r1.log| && 0 <= l < |r2.log| ==> !IsPrefix(r1.log[k].path, r2.log[l].path)
  {
    forall q
      ensures IsPrefix(Child(p, n), q) <==> UnderAny(p, {n}, q)
    {
      UnderChild(p, n, q);
    }
    var log := r1.log + r2.log;
    forall k | 0 <= k < |log|
      ensures log[k].path in d && log[k] == DeleteEvent(log[k].path, d[log[k].path])
    {
      if k >= |r1.log| {
        assert log[k] == r2.log[k - |r1.log|];
      }
    }
    forall k, l | 0 <= k < |r1.log| && 0 <= l < |r2.log|
      ensures !IsPrefix(r1.log[k].path, r2.log[l].path)
    {
      var x, y := r1.log[k].path, r2.log[l].path;
      assert x in LoggedPaths(r1.log);
      assert y in LoggedPaths(r2.log);
    }
  }

  /** Concatenating two children-first logs keeps the order when no event of
      the first is about a prefix of an event of the second. */
  lemma ChildrenFirstAppend(a: seq<Event>, b: seq<Event>)
    requires ChildrenFirst(a) && ChildrenFirst(b)
    requires forall k, l :: 0 <= k < |a| && 0 <= l < |b| ==> !IsPrefix(a[k].path, b[l].path)
    ensures ChildrenFirst(a + b)
  {
    var ab := a + b;
    forall k, l | 0 <= k < l < |ab|
      ensures !IsPrefix(ab[k].path, ab[l].path)
    {
      if l < |a| {
        assert ab[k] == a[k] && ab[l] == a[l];
      } else if k >= |a| {
        assert ab[k] == b[k - |a|] && ab[l] == b[l - |a|];
      } else {
        assert ab[k] == a[k] && ab[l] == b[l - |a|];
      }
    }
  }
}

=== FILE: engine.dfy ===
/**
 `syncItem`: the recursive reconciliation of one relative path of a sync pair.

 The source tree is only read. The destination tree is threaded through the
 recursion and returned with the events reported on the way. Child entries
 are visited in an unspecified order (`readdir`), depth first; the
 bidirectional clean-up of a directory runs after all its children.
 */
module Engine {
  import opened Paths
  import opened FileTree
  import opened Ignore
  import opened CopyRetry
  import opened Folders
  import opened Deletion

  /** What the model cannot observe: how many copy attempts of each file fail
      before one succeeds (absent: none), and the modification time a copied
      file ends up with, given its source's. */
  datatype Env = Env(failures: map<Path, nat>, stamp: nat -> nat)

  function FailuresAt(env: Env, p: Path): nat {
    if p in env.failures then env.failures[p] else 0
  }

  /** Only the subtree at `p` changes, apart from missing ancestors of `p` being made. */
  predicate Frame(d: Tree, d': Tree, p: Path) {
    && (forall q :: q in d && !IsPrefix(p, q) ==> q in d' && d'[q] == d[q])
    && (forall q :: q in d' && q !in d ==> IsPrefix(p, q) || IsPrefix(q, p))
  }

  /** Every event is about the subtree at `p`, or creates a missing ancestor of `p`. */
  predicate Scoped(d: Tree, p: Path, log: seq<Event>) {
    forall k :: 0 <= k < |log| ==>
      IsPrefix(p, log[k].path) || (log[k].DirCreated? && IsStrictPrefix(log[k].path, p) && log[k].path !in d)
  }

  /** Destination entries without a source counterpart survive unchanged. */
  predicate KeepsDestOnly(s: Tree, d: Tree, d': Tree) {
    forall q :: q in d && q !in s ==> q in d' && d'[q] == d[q]
  }

  /** The names of `names` whose source entry is missing. */
  function Orphans(s: Tree, p: Path, names: set<string>): set<string> {
    set n | n in names && Child(p, n) !in s
  }

  /** The copy of a source file that is absent or older at the destination:
      the retry loop's verdict decides; a missing destination directory makes
      every attempt fail. A copy only lands inside an existing directory, so
      the destination stays a tree of the same kinds as the source, and nothing
      but the copied entry changes. */
  function CopyFile(s: Tree, d: Tree, env: Env, p: Path): (r: Outcome)
    requires WellFormed(s) && WellFormed(d) && KindsAgree(s, d)
    requires p in s && s[p].File?
    ensures WellFormed(r.dest) && KindsAgree(s, r.dest)
    ensures forall q :: q != p ==> (q in r.dest <==> q in d) && (q in d ==> r.dest[q] == d[q])
    ensures Reported(d, r.dest, r.log)
    ensures |r.log| == 1 && r.log[0].path == p
  {
    if InDirectory(d, p) && CopySucceeds(FailuresAt(env, p)) then
      var m := env.stamp(s[p].mtime);
      CopyKeepsTree(s, d, p, m);
      Outcome(d[p := File(m)], [FileCopied(p)])
    else
      Outcome(d, [CopyFailed(p)])
  }

  /** Writing a file into an existing directory, where the source has a file,
      keeps the destination well-formed and in kind with the source. */
  lemma CopyKeepsTree(s: Tree, d: Tree, p: Path, m: nat)
    requires WellFormed(s) && WellFormed(d) && KindsAgree(s, d)
    requires p in s && s[p].File? && InDirectory(d, p)
    ensures WellFormed(d[p := File(m)]) && KindsAgree(s, d[p := File(m)])
  {
    var d' := d[p := File(m)];
    assert ValidPath(p);
    forall q | q in d'
      ensures InDirectory(d', q)
    {
      if q != p {
        assert InDirectory(d, q);
      }
    }
  }

  /** `syncItem(itemPath, sync)` as called by the watcher or the initial sync:
      the ignore test on the raw path, then backslashes become slashes. */
  ghost function SyncItem(s: Tree, d: Tree, cfg: Config, env: Env, raw: string): (r: Outcome)
    requires WellFormed(s) && WellFormed(d) && KindsAgree(s, d)
    requires !Ignored(cfg, raw) ==> ValidRel(Normalize(raw))
    ensures Ignored(cfg, raw) ==> r.dest == d && r.log == []
    ensures WellFormed(r.dest) && KindsAgree(s, r.dest)
    ensures !Ignored(cfg, raw) ==> Frame(d, r.dest, ParsePath(Normalize(raw)))
    ensures Reported(d, r.dest, r.log)
  {
    if Ignored(cfg, raw) then Outcome(d, [])
    else Reconcile(s, d, cfg, env, ParsePath(Normalize(raw)))
  }

  /** The part of `syncItem` after the ignore test, for the path `p`. */
  ghost function Reconcile(s: Tree, d: Tree, cfg: Config, env: Env, p: Path): (r: Outcome)
    requires WellFormed(s) && WellFormed(d) && KindsAgree(s, d)
    ensures WellFormed(r.dest) && KindsAgree(s, r.dest)
    ensures Frame(d, r.dest, p)
    ensures Scoped(d, p, r.log)
    ensures p !in s ==> CutBelow(d, r.dest, p)
    ensures p in s && s[p].Dir? ==> p in r.dest && r.dest[p] == Dir
    ensures p in s && !cfg.bidir ==> KeepsDestOnly(s, d, r.dest)
    ensures p in s && s[p].Dir? && cfg.bidir ==> ChildNames(r.dest, p) <= ChildNames(s, p)
    ensures Reported(d, r.dest, r.log)
    decreases Below(s, p), 1
  {
    if p !in s then
      var r := DeleteItem(d, p);
      DeletionFacts(s, d, r, p);
      r
    else if s[p].Dir? then
      var made := if p in d then Outcome(d, []) else MakeDir(s, d, p);
      var visited := VisitChildren(s, made.dest, cfg, env, p, ChildNames(s, p));
      var pruned := if cfg.bidir then Prune(s, visited.dest, p, ChildNames(visited.dest, p)) else Outcome(visited.dest, []);
      DirectoryFacts(s, d, cfg, p, made, visited, pruned);
      DirectoryReported(s, d, cfg, p, made, visited, pruned);
      Outcome(pruned.dest, made.log + visited.log + pruned.log)
    else if p !in d || s[p].mtime > d[p].mtime then
      var r := CopyFile(s, d, env, p);
      CopyFacts(s, d, env, p, r);
      r
    else
      Outcome(d, [])
  }

  /** The `readdir(srcPath).forEach` loop: each source child, unless ignored,
      is reconciled with the relative path `itemPath/name`. */
  ghost function VisitChildren(s: Tree, d: Tree, cfg: Config, env: Env, p: Path, names: set<string>): (r: Outcome)
    requires WellFormed(s) && WellFormed(d) && KindsAgree(s, d)
    requires p in d && d[p] == Dir
    requires names <= ChildNames(s, p)
    ensures WellFormed(r.dest) && KindsAgree(s, r.dest)
    ensures p in r.dest && r.dest[p] == Dir
    ensures forall q :: q in d && !UnderAny(p, names, q) ==> q in r.dest && r.dest[q] == d[q]
    ensures forall q :: q in r.dest && q !in d ==> UnderAny(p, names, q)
    ensures forall k :: 0 <= k < |r.log| ==> UnderAny(p, names, r.log[k].path)
    ensures !cfg.bidir ==> KeepsDestOnly(s, d, r.dest)
    ensures Reported(d, r.dest, r.log)
    decreases Below(s, p), 0, names
  {
    if names == {} then
      Outcome(d, [])
    else
      var n := Pick(names);
      var c := Child(p, n);
      BelowShrinks(s, p, c);
      var r1 := if Ignored(cfg, Join(c)) then Outcome(d, []) else Reconcile(s, d, cfg, env, c);
      ChildStep(d, r1, p, n);
      var r2 := VisitChildren(s, r1.dest, cfg, env, p, names - {n});
      SiblingStep(s, cfg, d, r1, r2, p, n, names);
      ReportedCompose(d, r1.dest, r2.dest, r1.log, r2.log);
      Outcome(r2.dest, r1.log + r2.log)
  }

  /** The bidirectional clean-up: each listed destination entry whose source
      entry is missing is deleted outright, whether or not it is ignored. */
  ghost function Prune(s: Tree, d: Tree, p: Path, names: set<string>): (r: Outcome)
    requires WellFormed(s) && WellFormed(d) && KindsAgree(s, d)
    requires forall n :: n in names ==> Child(p, n) in d
    ensures WellFormed(r.dest) && KindsAgree(s, r.dest)
    ensures CutUnder(d, r.dest, p, Orphans(s, p, names))
    ensures DeletionLog(d, r.log)
    ensures ChildrenFirst(r.log)
    ensures LoggedPaths(r.log) == set q | q in d && UnderAny(p, Orphans(s, p, names), q)
    ensures forall k :: 0 <= k < |r.log| ==> UnderAny(p, Orphans(s, p, names), r.log[k].path)
    decreases names
  {
    if names == {} then
      assert Orphans(s, p, names) == {};
      Outcome(d, [])
    else
      var n := Pick(names);
      var c := Child(p, n);
      var r1 := if c in s then Outcome(d, []) else DeleteItem(d, c);
      PruneStep(s, d, r1, p, n, names);
      var r2 := Prune(s, r1.dest, p, names - {n});
      PruneCompose(s, d, r1, r2, p, n, names);
      Outcome(r2.dest, r1.log + r2.log)
  }

  /** `createFolder(destPath)` for a source directory missing at the destination. */
  function MakeDir(s: Tree, d: Tree, p: Path): (r: Outcome)
    requires WellFormed(s) && WellFormed(d) && KindsAgree(s, d)
    requires p in s && s[p] == Dir && p !in d
    ensures WellFormed(r.dest) && KindsAgree(s, r.dest)
    ensures p in r.dest && r.dest[p] == Dir
    ensures forall q :: q in d ==> q in r.dest && r.dest[q] == d[q]
    ensures forall q :: q in r.dest && q !in d ==> IsPrefix(q, p)
    ensures Scoped(d, p, r.log)
    ensures forall k :: 0 <= k < |r.log| ==> r.log[k] == DirCreated(r.log[k].path)
    ensures forall k, l :: 0 <= k < l < |r.log| ==> |r.log[k].path| < |r.log[l].path|
    ensures LoggedPaths(r.log) == r.dest.Keys - d.Keys
    ensures Reported(d, r.dest, r.log)
  {
    MadeAncestors(s, d, p);
    var r := CreateFolder(d, p);
    MadeKinds(s, d, p, r);
    assert p[..|p|] == p;
    r
  }

  /** The prefixes of a source directory that exist at the destination are directories there. */
  lemma MadeAncestors(s: Tree, d: Tree, p: Path)
    requires WellFormed(s) && KindsAgree(s, d)
    requires p in s && s[p] == Dir
    ensures ValidPath(p)
    ensures forall j :: 0 <= j <= |p| && p[..j] in d ==> d[p[..j]] == Dir
  {
    forall j | 0 <= j <= |p| && p[..j] in d
      ensures d[p[..j]] == Dir
    {
      if j < |p| {
        AncestorIsDir(s, p, j);
      } else {
        assert p[..j] == p;
      }
    }
  }

  /** The directories `createFolder` makes for a source directory are prefixes
      of it, so they are directories in the source too, and their creations are
      the only events not about the directory's own subtree. */
  lemma MadeKinds(s: Tree, d: Tree, p: Path, r: Outcome)
    requires WellFormed(s) && KindsAgree(s, d)
    requires p in s && s[p] == Dir
    requires forall q :: q in d ==> q in r.dest && r.dest[q] == d[q]
    requires forall q :: q in r.dest && q !in d ==> IsPrefix(q, p) && r.dest[q] == Dir
    requires forall k :: 0 <= k < |r.log| ==> r.log[k] == DirCreated(r.log[k].path)
    requires LoggedPaths(r.log) == r.dest.Keys - d.Keys
    ensures KindsAgree(s, r.dest)
    ensures Scoped(d, p, r.log)
  {
    forall q | q in s && q in r.dest
      ensures s[q].Dir? == r.dest[q].Dir?
    {
      if q !in d {
        assert r.dest[q] == Dir && q == p[..|q|];
        if |q| < |p| {
          AncestorIsDir(s, p, |q|);
        } else {
          assert q == p;
        }
      }
    }
    forall k | 0 <= k < |r.log|
      ensures IsPrefix(p, r.log[k].path) || (r.log[k].DirCreated? && IsStrictPrefix(r.log[k].path, p) && r.log[k].path !in d)
    {
      assert r.log[k].path in LoggedPaths(r.log);
    }
  }

  lemma DeletionFacts(s: Tree, d: Tree, r: Outcome, p: Path)
    requires WellFormed(d) && KindsAgree(s, d)
    requires CutBelow(d, r.dest, p) && LoggedPaths(r.log) == Subtree(d, p)
    requires DeletionLog(d, r.log)
    ensures KindsAgree(s, r.dest) && Frame(d, r.dest, p) && Scoped(d, p, r.log)
    ensures Reported(d, r.dest, r.log)
  {
    RemovalsReported(d, r.dest, r.log);
    forall k | 0 <= k < |r.log|
      ensures IsPrefix(p, r.log[k].path)
    {
      assert r.log[k].path in LoggedPaths(r.log);
    }
  }

  lemma CopyFacts(s: Tree, d: Tree, env: Env, p: Path, r: Outcome)
    requires WellFormed(s) && WellFormed(d) && KindsAgree(s, d)
    requires p in s && s[p].File?
    requires r == CopyFile(s, d, env, p)
    ensures Frame(d, r.dest, p) && Scoped(d, p, r.log)
    ensures KeepsDestOnly(s, d, r.dest)
  {
    assert p[..|p|] == p;
  }

  /** A prefix of a directory of the destination is in the destination. */
  lemma PrefixOfDirPresent(d: Tree, p: Path, q: Path)
    requires WellFormed(d) && p in d
    requires IsPrefix(q, p)
    ensures q in d
  {
    if |q| < |p| {
      AncestorIsDir(d, p, |q|);
    } else {
      assert p[..|p|] == p;
    }
  }

  /** What reconciling (or skipping) one child does, seen from its parent. */
  lemma ChildStep(d: Tree, r1: Outcome, p: Path, n: string)
    requires WellFormed(d) && p in d && d[p] == Dir
    requires Frame(d, r1.dest, Child(p, n)) && Scoped(d, Child(p, n), r1.log)
    ensures p in r1.dest && r1.dest[p] == Dir
    ensures forall q :: q in d && !UnderAny(p, {n}, q) ==> q in r1.dest && r1.dest[q] == d[q]
    ensures forall q :: q in r1.dest && q !in d ==> UnderAny(p, {n}, q)
    ensures forall k :: 0 <= k < |r1.log| ==> UnderAny(p, {n}, r1.log[k].path)
  {
    var c := Child(p, n);
    forall q
      ensures IsPrefix(c, q) <==> UnderAny(p, {n}, q)
    {
      UnderChild(p, n, q);
    }
    assert !IsPrefix(c, p);
    forall q | q in r1.dest && q !in d
      ensures UnderAny(p, {n}, q)
    {
      if IsPrefix(q, c) && q != c {
        assert IsPrefix(q, p) by {
          assert q == c[..|q|];
          assert p == c[..|p|];
        }
        PrefixOfDirPresent(d, p, q);
      }
    }
    forall k | 0 <= k < |r1.log|
      ensures UnderAny(p, {n}, r1.log[k].path)
    {
      var q := r1.log[k].path;
      if !IsPrefix(c, q) {
        assert IsPrefix(q, p) by {
          assert q == c[..|q|];
          assert p == c[..|p|];
        }
        PrefixOfDirPresent(d, p, q);
      }
    }
  }

  /** One child, then the others: the effects compose. */
  lemma SiblingStep(s: Tree, cfg: Config, d: Tree, r1: Outcome, r2: Outcome, p: Path, n: string, names: set<string>)
    requires n in names
    requires forall q :: q in d && !UnderAny(p, {n}, q) ==> q in r1.dest && r1.dest[q] == d[q]
    requires forall q :: q in r1.dest && q !in d ==> UnderAny(p, {n}, q)
    requires forall k :: 0 <= k < |r1.log| ==> UnderAny(p, {n}, r1.log[k].path)
    requires !cfg.bidir ==> KeepsDestOnly(s, d, r1.dest)
    requires forall q :: q in r1.dest && !UnderAny(p, names - {n}, q) ==> q in r2.dest && r2.dest[q] == r1.dest[q]
    requires forall q :: q in r2.dest && q !in r1.dest ==> UnderAny(p, names - {n}, q)
    requires forall k :: 0 <= k < |r2.log| ==> UnderAny(p, names - {n}, r2.log[k].path)
    requires !cfg.bidir ==> KeepsDestOnly(s, r1.dest, r2.dest)
    ensures forall q :: q in d && !UnderAny(p, names, q) ==> q in r2.dest && r2.dest[q] == d[q]
    ensures forall q :: q in r2.dest && q !in d ==> UnderAny(p, names, q)
    ensures forall k :: 0 <= k < |r1.log + r2.log| ==> UnderAny(p, names, (r1.log + r2.log)[k].path)
    ensures !cfg.bidir ==> KeepsDestOnly(s, d, r2.dest)
  {
    var log := r1.log + r2.log;
    forall k | 0 <= k < |log|
      ensures UnderAny(p, names, log[k].path)
    {
      if k >= |r1.log| {
        assert log[k] == r2.log[k - |r1.log|];
      }
    }
  }

  /** Deleting (or keeping) one listed entry leaves the others listed. */
  lemma PruneStep(s: Tree, d: Tree, r1: Outcome, p: Path, n: string, names: set<string>)
    requires WellFormed(d) && KindsAgree(s, d)
    requires n in names && forall m :: m in names ==> Child(p, m) in d
    requires Child(p, n) in s ==> r1 == Outcome(d, [])
    requires Child(p, n) !in s ==> r1 == DeleteItem(d, Child(p, n))
    ensures WellFormed(r1.dest) && KindsAgree(s, r1.dest)
    ensures forall m :: m in names - {n} ==> Child(p, m) in r1.dest
  {
    if Child(p, n) !in s {
      SiblingsSurvive(d, r1.dest, p, n, names);
    }
  }

  /** Deleting (or keeping) one listed entry, then cleaning up the others:
      the removals and their reports compose. */
  lemma PruneCompose(s: Tree, d: Tree, r1: Outcome, r2: Outcome, p: Path, n: string, names: set<string>)
    requires WellFormed(d)
    requires n in names
    requires Child(p, n) in s ==> r1 == Outcome(d, [])
    requires Child(p, n) !in s ==> r1 == DeleteItem(d, Child(p, n))
    requires CutUnder(r1.dest, r2.dest, p, Orphans(s, p, names - {n}))
    requires DeletionLog(r1.dest, r2.log)
    requires ChildrenFirst(r2.log)
    requires LoggedPaths(r2.log) == set q | q in r1.dest && UnderAny(p, Orphans(s, p, names - {n}), q)
    ensures CutUnder(d, r2.dest, p, Orphans(s, p, names))
    ensures DeletionLog(d, r1.log + r2.log)
    ensures ChildrenFirst(r1.log + r2.log)
    ensures LoggedPaths(r1.log + r2.log) == set q | q in d && UnderAny(p, Orphans(s, p, names), q)
    ensures forall k :: 0 <= k < |r1.log + r2.log| ==> UnderAny(p, Orphans(s, p, names), (r1.log + r2.log)[k].path)
  {
    var c := Child(p, n);
    var rest := Orphans(s, p, names - {n});
    var all := Orphans(s, p, names);
    var log := r1.log + r2.log;
    OrphansSplit(s, p, n, names);
    if c !in s {
      assert all - {n} == rest;
      SiblingLogs(d, r1, r2, p, n, all);
      LoggedPathsAppend(r1.log, r2.log);
      ChildrenFirstAppend(r1.log, r2.log);
    } else {
      assert all == rest && log == r2.log;
    }
    forall k | 0 <= k < |log|
      ensures UnderAny(p, all, log[k].path)
    {
      assert log[k].path in LoggedPaths(log);
    }
  }

  /** The orphans of `names` are those of the others, plus `n` when its source
      entry is missing. */
  lemma OrphansSplit(s: Tree, p: Path, n: string, names: set<string>)
    requires n in names
    ensures Orphans(s, p, names) == if Child(p, n) in s then Orphans(s, p, names - {n}) else Orphans(s, p, names - {n}) + {n}
  {
  }

  /** The directory case: made, visited, pruned. */
  lemma DirectoryFacts(s: Tree, d: Tree, cfg: Config, p: Path, made: Outcome, visited: Outcome, pruned: Outcome)
    requires WellFormed(s) && WellFormed(d) && KindsAgree(s, d)
    requires p in s && s[p] == Dir
    requires p in d ==> made == Outcome(d, [])
    requires p !in d ==> made == MakeDir(s, d, p)
    requires WellFormed(made.dest) && KindsAgree(s, made.dest) && p in made.dest && made.dest[p] == Dir
    requires forall q :: q in made.dest && !UnderAny(p, ChildNames(s, p), q) ==> q in visited.dest && visited.dest[q] == made.dest[q]
    requires forall q :: q in visited.dest && q !in made.dest ==> UnderAny(p, ChildNames(s, p), q)
    requires forall k :: 0 <= k < |visited.log| ==> UnderAny(p, ChildNames(s, p), visited.log[k].path)
    requires !cfg.bidir ==> KeepsDestOnly(s, made.dest, visited.dest)
    requires !cfg.bidir ==> pruned == Outcome(visited.dest, [])
    requires cfg.bidir ==> CutUnder(visited.dest, pruned.dest, p, Orphans(s, p, ChildNames(visited.dest, p)))
    requires cfg.bidir ==> forall k :: 0 <= k < |pruned.log| ==> UnderAny(p, Orphans(s, p, ChildNames(visited.dest, p)), pruned.log[k].path)
    ensures Frame(d, pruned.dest, p)
    ensures Scoped(d, p, made.log + visited.log + pruned.log)
    ensures p in pruned.dest && pruned.dest[p] == Dir
    ensures !cfg.bidir ==> KeepsDestOnly(s, d, pruned.dest)
    ensures cfg.bidir ==> ChildNames(pruned.dest, p) <= ChildNames(s, p)
  {
    var below := ChildNames(s, p);
    var orphans := Orphans(s, p, ChildNames(visited.dest, p));
    // everything visiting and pruning touch lies strictly below p
    assert forall q :: UnderAny(p, below, q) ==> IsPrefix(p, q) && q != p;
    assert forall q :: UnderAny(p, orphans, q) ==> IsPrefix(p, q) && q != p;
    assert forall q :: !UnderAny(p, below, q) && !UnderAny(p, orphans, q) && q in made.dest ==> q in pruned.dest && pruned.dest[q] == made.dest[q];
    MadeFrame(s, d, p, made);
    DirectoryScope(d, p, made.log, visited.log, pruned.log, below, orphans, cfg.bidir);
    if cfg.bidir {
      forall m | m in ChildNames(pruned.dest, p)
        ensures m in ChildNames(s, p)
      {
        assert !UnderAny(p, orphans, Child(p, m));
      }
    }
  }

  /** The directory case reports every change: those of making it, of
      visiting its children and of the clean-up. */
  lemma DirectoryReported(s: Tree, d: Tree, cfg: Config, p: Path, made: Outcome, visited: Outcome, pruned: Outcome)
    requires Reported(d, made.dest, made.log)
    requires Reported(made.dest, visited.dest, visited.log)
    requires !cfg.bidir ==> pruned == Outcome(visited.dest, [])
    requires cfg.bidir ==> CutUnder(visited.dest, pruned.dest, p, Orphans(s, p, ChildNames(visited.dest, p)))
    requires cfg.bidir ==> DeletionLog(visited.dest, pruned.log)
    requires cfg.bidir ==> LoggedPaths(pruned.log) == set q | q in visited.dest && UnderAny(p, Orphans(s, p, ChildNames(visited.dest, p)), q)
    ensures Reported(d, pruned.dest, made.log + visited.log + pruned.log)
  {
    ReportedCompose(d, made.dest, visited.dest, made.log, visited.log);
    if cfg.bidir {
      RemovalsReported(visited.dest, pruned.dest, pruned.log);
    }
    ReportedCompose(d, visited.dest, pruned.dest, made.log + visited.log, pruned.log);
  }

  lemma MadeFrame(s: Tree, d: Tree, p: Path, made: Outcome)
    requires WellFormed(s) && WellFormed(d) && KindsAgree(s, d)
    requires p in s && s[p] == Dir
    requires p in d ==> made == Outcome(d, [])
    requires p !in d ==> made == MakeDir(s, d, p)
    ensures forall q :: q in d ==> q in made.dest && made.dest[q] == d[q]
    ensures forall q :: q in made.dest && q !in d ==> IsPrefix(q, p)
    ensures Scoped(d, p, made.log)
  {
  }

  lemma DirectoryScope(d: Tree, p: Path, a: seq<Event>, b: seq<Event>, c: seq<Event>, below: set<string>, orphans: set<string>, bidir: bool)
    requires Scoped(d, p, a)
    requires forall k :: 0 <= k < |b| ==> UnderAny(p, below, b[k].path)
    requires !bidir ==> c == []
    requires bidir ==> forall k :: 0 <= k < |c| ==> UnderAny(p, orphans, c[k].path)
    ensures Scoped(d, p, a + b + c)
  {
    var log := a + b + c;
    forall k | 0 <= k < |log|
      ensures IsPrefix(p, log[k].path) || (log[k].DirCreated? && IsStrictPrefix(log[k].path, p) && log[k].path !in d)
    {
      if k < |a| {
        assert log[k] == a[k];
      } else if k < |a| + |b| {
        assert log[k] == b[k - |a|];
        assert log[k].path[..|p|] == p;
      } else {
        assert log[k] == c[k - |a| - |b|];
        assert log[k].path[..|p|] == p;
      }
    }
  }

  /** Reaching a child through the string form of its path, as the source
      does, is reconciling the child path itself. */
  lemma SyncChild(s: Tree, d: Tree, cfg: Config, env: Env, p: Path, n: string)
    requires WellFormed(s) && WellFormed(d) && KindsAgree(s, d)
    requires Child(p, n) in s
    ensures !Ignored(cfg, ChildRel(Join(p), n)) ==> ValidRel(Normalize(ChildRel(Join(p), n)))
    ensures SyncItem(s, d, cfg, env, ChildRel(Join(p), n))
         == if Ignored(cfg, Join(Child(p, n))) then Outcome(d, []) else Reconcile(s, d, cfg, env, Child(p, n))
  {
    var c := Child(p, n);
    assert ValidPath(c);
    assert p == c[..|p|] && n == c[|p|];
    ChildRelJoin(p, n);
    NormalizeJoin(c);
    ParseJoin(c);
  }
}

=== FILE: folders.dfy ===
/**
 `createFolder`: walks the segments of a destination directory path from the
 root down and makes every prefix that does not exist yet, reporting one
 creation per directory made.
 */
module Folders {
  import opened Paths
  import opened FileTree

  /** The loop of `createFolder` from prefix length `i` on. */
  function CreateFrom(d: Tree, p: Path, i: nat): (r: Outcome)
    requires i <= |p| + 1
    ensures forall q :: q in d ==> q in r.dest && r.dest[q] == d[q]
    ensures forall q :: q in r.dest && q !in d ==> r.dest[q] == Dir && IsPrefix(q, p) && |q| >= i
    ensures forall j :: i <= j <= |p| ==> p[..j] in r.dest
    ensures forall k :: 0 <= k < |r.log| ==> r.log[k] == DirCreated(r.log[k].path)
    ensures forall k, l :: 0 <= k < l < |r.log| ==> |r.log[k].path| < |r.log[l].path|
    ensures LoggedPaths(r.log) == r.dest.Keys - d.Keys
    decreases |p| + 1 - i
  {
    if i > |p| then Outcome(d, [])
    else
      var q := p[..i];
      if q in d then CreateFrom(d, p, i + 1)
      else
        var r := CreateFrom(d[q := Dir], p, i + 1);
        CreatedTree(d, p, i, r.dest);
        CreatedLog(d, q, r.dest, r.log);
        Outcome(r.dest, [DirCreated(q)] + r.log)
  }

  /** Making the prefix of length `i` and then walking on from `i + 1` keeps
      what existed and adds only directories on the path from `i` on. */
  lemma CreatedTree(d: Tree, p: Path, i: nat, dest: Tree)
    requires i <= |p| && p[..i] !in d
    requires var d' := d[p[..i] := Dir];
      && (forall q :: q in d' ==> q in dest && dest[q] == d'[q])
      && (forall q :: q in dest && q !in d' ==> dest[q] == Dir && IsPrefix(q, p) && |q| >= i + 1)
      && (forall j :: i + 1 <= j <= |p| ==> p[..j] in dest)
    ensures forall q :: q in d ==> q in dest && dest[q] == d[q]
    ensures forall q :: q in dest && q !in d ==> dest[q] == Dir && IsPrefix(q, p) && |q| >= i
    ensures forall j :: i <= j <= |p| ==> p[..j] in dest
    ensures p[..i] in dest
    ensures forall x :: x in dest && x !in d[p[..i] := Dir] ==> |x| > i
  {
  }

  /** Reporting the creation of `q` before the rest of the walk reports
      exactly the entries the walk added to `d`. */
  lemma CreatedLog(d: Tree, q: Path, dest: Tree, log: seq<Event>)
    requires q !in d && q in dest
    requires LoggedPaths(log) == dest.Keys - d[q := Dir].Keys
    requires forall x :: x in dest && x !in d[q := Dir] ==> |x| > |q|
    requires forall k :: 0 <= k < |log| ==> log[k] == DirCreated(log[k].path)
    requires forall k, l :: 0 <= k < l < |log| ==> |log[k].path| < |log[l].path|
    ensures LoggedPaths([DirCreated(q)] + log) == dest.Keys - d.Keys
    ensures var all := [DirCreated(q)] + log;
      && (forall k :: 0 <= k < |all| ==> all[k] == DirCreated(all[k].path))
      && (forall k, l :: 0 <= k < l < |all| ==> |all[k].path| < |all[l].path|)
  {
    var all := [DirCreated(q)] + log;
    forall k | 0 < k < |all|
      ensures all[k] == log[k - 1] && |all[k].path| > |q|
    {
      assert log[k - 1].path in LoggedPaths(log);
    }
    LoggedPathsAppend([DirCreated(q)], log);
    LoggedPathsSingle(DirCreated(q));
    assert d[q := Dir].Keys == d.Keys + {q};
    assert dest.Keys - d.Keys == {q} + (dest.Keys - d[q := Dir].Keys);
  }

  /** A step that only adds directories, and logs the creation of exactly the
      added ones, reports every change it makes. */
  lemma CreationsReported(d: Tree, d': Tree, log: seq<Event>)
    requires forall q :: q in d ==> q in d' && d'[q] == d[q]
    requires forall q :: q in d' && q !in d ==> d'[q] == Dir
    requires forall k :: 0 <= k < |log| ==> log[k] == DirCreated(log[k].path)
    requires LoggedPaths(log) == d'.Keys - d.Keys
    ensures Reported(d, d', log)
  {
    forall q | Changed(d, d', q)
      ensures DirCreated(q) in log
    {
      assert q in LoggedPaths(log);
      var k :| 0 <= k < |log| && log[k].path == q;
      assert log[k] == DirCreated(q);
    }
  }

  /** Adding the missing prefixes of a path as directories keeps a tree
      well-formed, and leaves every prefix a directory. */
  lemma CreatedWellFormed(d: Tree, p: Path, dest: Tree)
    requires WellFormed(d) && ValidPath(p)
    requires forall j :: 0 <= j <= |p| && p[..j] in d ==> d[p[..j]] == Dir
    requires forall q :: q in d ==> q in dest && dest[q] == d[q]
    requires forall q :: q in dest && q !in d ==> dest[q] == Dir && IsPrefix(q, p)
    requires forall j :: 0 <= j <= |p| ==> p[..j] in dest
    ensures WellFormed(dest)
    ensures forall j :: 0 <= j <= |p| ==> p[..j] in dest && dest[p[..j]] == Dir
  {
    forall j | 0 <= j <= |p|
      ensures dest[p[..j]] == Dir
    {
      assert p[..j] in dest;
    }
    forall q | q in dest
      ensures InDirectory(dest, q)
    {
      if q in d {
        assert InDirectory(d, q);
      } else if q != [] {
        assert q == p[..|q|];
        assert Parent(q) == p[..|q| - 1];
      }
    }
    forall q | q in dest
      ensures ValidPath(q)
    {
      if q !in d {
        assert q == p[..|q|];
      }
    }
    assert [] == p[..0];
  }

  /** `createFolder(destPath)`: afterwards the directory and all its ancestors
      exist as directories, nothing that existed has changed, and the log holds
      exactly one creation per directory made, outermost first. */
  function CreateFolder(d: Tree, p: Path): (r: Outcome)
    requires WellFormed(d) && ValidPath(p)
    requires forall j :: 0 <= j <= |p| && p[..j] in d ==> d[p[..j]] == Dir
    ensures WellFormed(r.dest)
    ensures forall j :: 0 <= j <= |p| ==> p[..j] in r.dest && r.dest[p[..j]] == Dir
    ensures forall q :: q in d ==> q in r.dest && r.dest[q] == d[q]
    ensures forall q :: q in r.dest && q !in d ==> IsPrefix(q, p)
    ensures forall k :: 0 <= k < |r.log| ==> r.log[k] == DirCreated(r.log[k].path)
    ensures forall k, l :: 0 <= k < l < |r.log| ==> |r.log[k].path| < |r.log[l].path|
    ensures LoggedPaths(r.log) == r.dest.Keys - d.Keys
    ensures Reported(d, r.dest, r.log)
  {
    var r := CreateFrom(d, p, 0);
    CreatedWellFormed(d, p, r.dest);
    assert Reported(d, r.dest, r.log) by {
      CreationsReported(d, r.dest, r.log);
    }
    r
  }
}

=== FILE: format.dfy ===
/**
 The formatting helpers of the log output: `fmtPath` shortens deep paths for
 display, `_fmtDateVal` pads a date or time field to two digits.
 */
module Format {
  import opened Paths
  import opened PathParse

  /** `fmtPath(strPath)`. A directory part of more than six segments keeps its
      first four and last three, with `...` between; `name + ext` is the base
      name again. The empty string stands for the `null` of the short case:
      both are falsy in the template's condition. */
  function FmtPath(s: string): (r: string)
    requires NoTrailingSlash(s)
  {
    ShownDir(DirOf(s)) + "/" + (NameOf(BaseOf(s)) + ExtOf(BaseOf(s)))
  }

  /** Whatever the depth, the shown path ends with a separator and the entry's
      base name. */
  lemma FmtPathEndsWithBase(s: string)
    requires NoTrailingSlash(s)
    ensures |BaseOf(s)| < |FmtPath(s)|
    ensures FmtPath(s)[|FmtPath(s)| - |BaseOf(s)| - 1..] == "/" + BaseOf(s)
  {
    var head, base := ShownDir(DirOf(s)), BaseOf(s);
    assert FmtPath(s) == head + "/" + base by {
      assert NameOf(base) + ExtOf(base) == base;
    }
    EndsWithBase(head, base);
  }

  /** The directory part as `fmtPath` shows it. */
  function ShownDir(dir: string): string {
    var segs := Split(dir);
    var prefix := if |segs| > 6 then Join(segs[..4]) else "";
    var suffix := if |segs| > 6 then Join(segs[|segs| - 3..]) else "";
    if prefix != "" && suffix != "" then prefix + "/.../" + suffix else dir
  }

  /** A string built as `head + "/" + base` ends with `/` and then `base`. */
  lemma EndsWithBase(head: string, base: string)
    ensures var r := head + "/" + base;
      |base| < |r| && r[|r| - |base| - 1..] == "/" + base
  {
    var r := head + "/" + base;
    assert r[|r| - |base| - 1..] == r[|head|..];
  }

  /** The shortened form is used exactly when the directory part has more than
      six segments. */
  lemma FmtPathAbbreviates(s: string)
    requires NoTrailingSlash(s)
    ensures var segs := Split(DirOf(s));
      FmtPath(s) == if |segs| > 6
        then Join(segs[..4]) + "/.../" + Join(segs[|segs| - 3..]) + "/" + BaseOf(s)
        else DirOf(s) + "/" + BaseOf(s)
  {
    var segs := Split(DirOf(s));
    assert FmtPath(s) == ShownDir(DirOf(s)) + "/" + BaseOf(s);
    if |segs| > 6 {
      KeptPartsNonEmpty(segs);
      assert ShownDir(DirOf(s)) == Join(segs[..4]) + "/.../" + Join(segs[|segs| - 3..]);
    }
  }

  /** The kept front and back of a deep directory are never empty, so the
      template's condition holds for them. */
  lemma KeptPartsNonEmpty(segs: seq<string>)
    requires |segs| > 6
    ensures Join(segs[..4]) != "" && Join(segs[|segs| - 3..]) != ""
  {
    JoinHasSlash(segs[..4]);
    JoinHasSlash(segs[|segs| - 3..]);
  }

  /** A path of at most six directory segments, past its first character, is
      shown unchanged. */
  lemma FmtPathShallow(s: string)
    requires NoTrailingSlash(s)
    requires '/' in s && LastIndex(s, '/') > 0
    requires |Split(DirOf(s))| <= 6
    ensures FmtPath(s) == s
  {
    FmtPathAbbreviates(s);
    DirBase(s);
  }

  /** A deeper path keeps its first four and its last four segments (the last
      being the base name), with a `...` segment between. */
  lemma FmtPathDeep(s: string)
    requires NoTrailingSlash(s)
    requires |Split(DirOf(s))| > 6
    ensures var parts := Split(s);
      |parts| > 7 &&
      Split(FmtPath(s)) == parts[..4] + ["..."] + parts[|parts| - 4..]
  {
    var segs := Split(DirOf(s));
    var base := BaseOf(s);
    DeepHasDir(s);
    SplitDirBase(s);
    FmtPathAbbreviates(s);
    ShownSplit(segs, base);
    KeptSegments(segs, base);
  }

  /** The segments of `segs + [base]` that the shortened form keeps. */
  lemma KeptSegments(segs: seq<string>, base: string)
    requires |segs| > 6
    ensures var parts := segs + [base];
      parts[..4] + ["..."] + parts[|parts| - 4..] == segs[..4] + ["..."] + segs[|segs| - 3..] + [base]
  {
    var parts := segs + [base];
    assert parts[..4] == segs[..4];
    assert parts[|parts| - 4..] == segs[|segs| - 3..] + [base];
  }

  /** Splitting the shortened form gives back the kept segments, `...` and the base. */
  lemma ShownSplit(segs: seq<string>, base: string)
    requires |segs| > 6 && '/' !in base
    requires forall i :: 0 <= i < |segs| ==> '/' !in segs[i]
    ensures Split(Join(segs[..4]) + "/.../" + Join(segs[|segs| - 3..]) + "/" + base)
      == segs[..4] + ["..."] + segs[|segs| - 3..] + [base]
  {
    var shown := segs[..4] + ["..."] + segs[|segs| - 3..] + [base];
    ShownJoin(segs, base);
    forall i | 0 <= i < |shown|
      ensures '/' !in shown[i]
    {
      if i < 4 {
        assert shown[i] == segs[i];
      } else if 4 < i < 8 {
        assert shown[i] == segs[|segs| - 3 + i - 5];
      }
    }
    SplitJoin(shown);
  }

  /** A deep path has a separator past its first character. */
  lemma DeepHasDir(s: string)
    requires |Split(DirOf(s))| > 6
    ensures '/' in s && LastIndex(s, '/') > 0
  {
  }

  /** The shortened form is the join of the kept segments, `...` and the base. */
  lemma ShownJoin(segs: seq<string>, base: string)
    requires |segs| > 6
    ensures var shown := segs[..4] + ["..."] + segs[|segs| - 3..] + [base];
      |shown| == 9 &&
      Join(shown) == Join(segs[..4]) + "/.../" + Join(segs[|segs| - 3..]) + "/" + base
  {
    var front := segs[..4] + ["..."];
    var back := segs[|segs| - 3..] + [base];
    JoinAppend(segs[..4], ["..."]);
    JoinAppend(segs[|segs| - 3..], [base]);
    JoinAppend(front, back);
    assert front + back == segs[..4] + ["..."] + segs[|segs| - 3..] + [base];
  }

  /** Shortening is idempotent on paths with a separator past their first
      character: a shortened path is shown as it is. */
  lemma FmtPathIdempotent(s: string)
    requires NoTrailingSlash(s)
    requires '/' in s && LastIndex(s, '/') > 0
    ensures NoTrailingSlash(FmtPath(s))
    ensures FmtPath(FmtPath(s)) == FmtPath(s)
  {
    if |Split(DirOf(s))| <= 6 {
      FmtPathShallow(s);
    } else {
      DeepIdempotent(s);
    }
  }

  lemma DeepIdempotent(s: string)
    requires NoTrailingSlash(s)
    requires '/' in s && |Split(DirOf(s))| > 6
    ensures NoTrailingSlash(FmtPath(s))
    ensures FmtPath(FmtPath(s)) == FmtPath(s)
  {
    var segs := Split(DirOf(s));
    var r := Join(segs[..4]) + "/.../" + Join(segs[|segs| - 3..]) + "/" + BaseOf(s);
    assert FmtPath(s) == r by {
      FmtPathAbbreviates(s);
    }
    BaseNotEmpty(s);
    ShortenedFixed(segs, BaseOf(s));
  }

  /** A path without a trailing separator and longer than one character has a
      non-empty base. */
  lemma BaseNotEmpty(s: string)
    requires NoTrailingSlash(s) && '/' in s && |s| > 1
    ensures BaseOf(s) != ""
  {
    var k := LastIndex(s, '/');
    assert BaseOf(s) == s[k + 1..];
  }

  /** A shortened path is shown as it is. */
  lemma ShortenedFixed(segs: seq<string>, base: string)
    requires |segs| > 6 && base != "" && '/' !in base
    requires forall i :: 0 <= i < |segs| ==> '/' !in segs[i]
    ensures var r := Join(segs[..4]) + "/.../" + Join(segs[|segs| - 3..]) + "/" + base;
      NoTrailingSlash(r) && FmtPath(r) == r
  {
    var front := Join(segs[..4]) + "/.../" + Join(segs[|segs| - 3..]);
    var r := front + "/" + base;
    var kept := segs[..4] + ["..."] + segs[|segs| - 3..];
    ShortenedParse(segs, base);
    assert kept[..4] == segs[..4];
    assert kept[|kept| - 3..] == segs[|segs| - 3..];
    FmtPathAbbreviates(r);
  }

  /** A shortened path parses into the kept directory segments and the base. */
  lemma ShortenedParse(segs: seq<string>, base: string)
    requires |segs| > 6 && base != "" && '/' !in base
    requires forall i :: 0 <= i < |segs| ==> '/' !in segs[i]
    ensures var front := Join(segs[..4]) + "/.../" + Join(segs[|segs| - 3..]);
      var r := front + "/" + base;
      && NoTrailingSlash(r)
      && DirOf(r) == front && BaseOf(r) == base
      && Split(front) == segs[..4] + ["..."] + segs[|segs| - 3..]
  {
    var kept := segs[..4] + ["..."] + segs[|segs| - 3..];
    var front := Join(segs[..4]) + "/.../" + Join(segs[|segs| - 3..]);
    KeptJoin(segs);
    forall i | 0 <= i < |kept|
      ensures '/' !in kept[i]
    {
      if i < 4 {
        assert kept[i] == segs[i];
      } else if i > 4 {
        assert kept[i] == segs[|segs| - 3 + i - 5];
      }
    }
    SplitJoin(kept);
    ParseJoined(front, base);
    var r := front + "/" + base;
    assert r[|r| - 1] == base[|base| - 1];
  }

  /** The directory part of a shortened path. */
  lemma KeptJoin(segs: seq<string>)
    requires |segs| > 6
    ensures Join(segs[..4] + ["..."] + segs[|segs| - 3..]) == Join(segs[..4]) + "/.../" + Join(segs[|segs| - 3..])
  {
    JoinAppend(segs[..4], ["..."]);
    JoinAppend(segs[..4] + ["..."], segs[|segs| - 3..]);
  }

  /** A bare name gains a leading separator: the template always puts `/`
      between the directory part and the base. */
  lemma FmtPathBareName(n: string)
    requires '/' !in n
    ensures FmtPath(n) == "/" + n
  {
    assert DirOf(n) == "" && BaseOf(n) == n;
    assert Split("") == [""];
    FmtPathAbbreviates(n);
  }

  /** A name in the root keeps its leading separator and gains a second one. */
  lemma FmtPathRootName(n: string)
    requires n != "" && '/' !in n
    ensures FmtPath("/" + n) == "//" + n
  {
    var rooted := "/" + n;
    LastSlashOfJoin("", n);
    assert "" + "/" + n == rooted;
    assert DirOf(rooted) == "/";
    assert BaseOf(rooted) == n by {
      assert rooted[1..] == n;
    }
    assert Split("/") == ["", ""] by {
      assert FirstSlash("/") == 0;
      assert Split("") == [""];
    }
    FmtPathAbbreviates(rooted);
  }

  /** A decimal digit. */
  predicate IsDigit(c: char) {
    '0' <= c <= '9'
  }

  function DigitChar(d: nat): (c: char)
    requires d < 10
    ensures IsDigit(c) && c as int - '0' as int == d
  {
    ('0' as int + d) as char
  }

  /** The decimal spelling of a number in a template literal: no leading zero. */
  function NatToString(v: nat): (r: string)
    ensures |r| >= 1 && forall i :: 0 <= i < |r| ==> IsDigit(r[i])
    ensures r[0] == '0' <==> v == 0
    ensures v < 10 <==> |r| == 1
    ensures |r| <= 2 <==> v < 100
    decreases v
  {
    if v < 10 then [DigitChar(v)]
    else NatToString(v / 10) + [DigitChar(v % 10)]
  }

  /** The number a string of decimal digits denotes. */
  function DigitsValue(s: string): nat
    requires forall i :: 0 <= i < |s| ==> IsDigit(s[i])
    decreases |s|
  {
    if s == [] then 0
    else
      assert IsDigit(s[|s| - 1]);
      DigitsValue(s[..|s| - 1]) * 10 + (s[|s| - 1] as int - '0' as int)
  }

  /** Reading back a decimal spelling gives the number. */
  lemma {:induction false} NatToStringValue(v: nat)
    ensures DigitsValue(NatToString(v)) == v
    decreases v
  {
    if v >= 10 {
      NatToStringValue(v / 10);
      var r := NatToString(v);
      assert r[..|r| - 1] == NatToString(v / 10);
    }
  }

  /** A leading zero does not change the value of a digit string. */
  lemma {:induction false} LeadingZeroValue(s: string)
    requires forall i :: 0 <= i < |s| ==> IsDigit(s[i])
    ensures DigitsValue("0" + s) == DigitsValue(s)
    decreases |s|
  {
    if s != [] {
      var z := "0" + s;
      assert z[..|z| - 1] == "0" + s[..|s| - 1];
      LeadingZeroValue(s[..|s| - 1]);
    } else {
      assert ("0" + s)[..0] == [];
    }
  }

  /** `_fmtDateVal(dateVal)`: a value below ten gets a leading zero; any other
      value is returned as is and spelt out by the template it lands in. */
  function FmtDateVal(v: nat): (r: string)
    ensures forall i :: 0 <= i < |r| ==> IsDigit(r[i])
    ensures DigitsValue(r) == v
    ensures |r| >= 2
    ensures v < 100 <==> |r| == 2
    ensures r[0] == '0' <==> v < 10
  {
    NatToStringValue(v);
    if v < 10 then
      LeadingZeroValue(NatToString(v));
      "0" + NatToString(v)
    else NatToString(v)
  }
}

=== FILE: ignore.dfy ===
/**
 The ignore test that opens `syncItem`.

 A relative path is skipped when it is listed verbatim in the pair's ignore
 list, or when `itemPath.search(".git")` finds a match. `search` takes its
 argument as a regular expression, so the `.` matches any character other than
 a line terminator: the test fires on "git" at any index of at least one whose
 preceding character is not a line terminator (`a/.git`, but also `legit.txt`).
 The test looks at the path exactly as given, before backslashes are rewritten.
 */
module Ignore {
  import opened Paths

  /** The parts of a sync pair the engine consults besides its roots. */
  datatype Config = Config(ignore: seq<string>, bidir: bool)

  /** The characters a regular-expression `.` does not match. */
  predicate IsLineTerminator(c: char) {
    c == '\n' || c == '\r' || c == '\U{2028}' || c == '\U{2029}'
  }

  /** The regular expression `.git` matches `s` at index `i - 1`. */
  predicate GitMatchAt(s: string, i: int) {
    1 <= i && i + 3 <= |s| && s[i..i + 3] == "git" && !IsLineTerminator(s[i - 1])
  }

  /** `s.search(".git") != -1`. */
  predicate HasGitMarker(s: string): (b: bool)
    ensures b ==> |s| >= 4
  {
    exists i | 1 <= i <= |s| - 3 :: GitMatchAt(s, i)
  }

  /** The opening test of `syncItem`: a skipped path is either listed verbatim
      or long enough to hold the marker. */
  predicate Ignored(cfg: Config, rel: string): (b: bool)
    ensures rel in cfg.ignore ==> b
    ensures b && rel !in cfg.ignore ==> |rel| >= 4
  {
    HasGitMarker(rel) || rel in cfg.ignore
  }

  /** Every path below a directory the marker test skips is skipped as well:
      its path string starts with the directory's. */
  lemma {:induction false} MarkerInherited(dir: string, rest: string)
    requires HasGitMarker(dir)
    ensures HasGitMarker(dir + rest)
  {
    var i :| 1 <= i <= |dir| - 3 && GitMatchAt(dir, i);
    var s := dir + rest;
    assert s[i..i + 3] == dir[i..i + 3];
    assert GitMatchAt(s, i);
  }

  /** A `.git` entry anywhere in a path is ignored, whatever surrounds it. */
  lemma DotGitIgnored(cfg: Config, before: string, after: string)
    ensures Ignored(cfg, before + ".git" + after)
  {
    var s := before + ".git" + after;
    assert s[|before| + 1..|before| + 4] == "git";
    assert GitMatchAt(s, |before| + 1);
  }

  /** Because the dot is a wildcard, any name holding "git" past its first
      character is ignored too, for instance `legit.txt`. */
  lemma LegitIgnored(cfg: Config)
    ensures Ignored(cfg, "legit.txt")
    ensures Ignored(cfg, "src/digits")
  {
    assert GitMatchAt("legit.txt", 2);
    assert GitMatchAt("src/digits", 6);
  }

  /** A name that starts with "git" at the root is not caught by the marker test. */
  lemma LeadingGitNotIgnored()
    ensures !Ignored(Config([], false), "github")
  {
    var s := "github";
    forall i | 1 <= i <= |s| - 3
      ensures !GitMatchAt(s, i)
    {
      assert s[i] != 'g';
    }
  }

  /** The ignore list is matched against the raw path: a backslash-separated
      spelling of an ignored path is not ignored. */
  lemma IgnoreBeforeNormalize()
    ensures Ignored(Config(["a/b"], false), "a/b")
    ensures !Ignored(Config(["a/b"], false), "a\\b")
    ensures Normalize("a\\b") == "a/b"
  {
    var s := "a\\b";
    assert s != "a/b";
    assert Normalize(s) == "a/b";
  }
}

=== FILE: parse.dfy ===
/**
 Node's POSIX `path.parse`, for the strings the formatting helpers and the
 rename rule hand it: `dir` is everything before the last `/` (just `/` when
 that slash opens the string, empty when there is none), `base` everything
 after it, and `base` splits into `name` and `ext` at its last dot, unless
 that dot opens the base or the base is `..`.

 Node first strips trailing slashes; the strings modelled here carry none
 (apart from the root `/` itself).
 */
module PathParse {
  import opened Paths

  /** No trailing separator, the root `/` apart. */
  predicate NoTrailingSlash(s: string) {
    |s| <= 1 || s[|s| - 1] != '/'
  }

  /** Index of the last occurrence of `c` in `s`. */
  function LastIndex(s: string, c: char): (k: nat)
    requires c in s
    ensures k < |s| && s[k] == c
    ensures c !in s[k + 1..]
    decreases |s|
  {
    if s[|s| - 1] == c then |s| - 1
    else
      var init := s[..|s| - 1];
      assert s == init + [s[|s| - 1]];
      var k := LastIndex(init, c);
      assert s[k + 1..] == init[k + 1..] + [s[|s| - 1]];
      k
  }

  /** `path.parse(s).dir`, for a string without a trailing slash (Node strips
      those first; see `NoTrailingSlash`). */
  function DirOf(s: string): (d: string)
    ensures d == "" <==> '/' !in s
    ensures '/' in s ==> s == d + "/" + BaseOf(s) || (d == "/" && s == d + BaseOf(s))
  {
    if '/' !in s then ""
    else if LastIndex(s, '/') == 0 then "/"
    else s[..LastIndex(s, '/')]
  }

  /** `path.parse(s).base`, for a string without a trailing slash. */
  function BaseOf(s: string): (b: string)
    ensures '/' !in b
  {
    if '/' !in s then s else s[LastIndex(s, '/') + 1..]
  }

  /** `path.parse(s).ext` of a base name. */
  function ExtOf(b: string): (e: string)
    ensures |e| <= |b| && e == b[|b| - |e|..]
    ensures e == "" || e[0] == '.'
  {
    if '.' !in b then ""
    else
      var k := LastIndex(b, '.');
      if k == 0 || b == ".." then "" else b[k..]
  }

  /** `path.parse(s).name` of a base name: the base without its extension. */
  function NameOf(b: string): (n: string)
    ensures n + ExtOf(b) == b
  {
    b[..|b| - |ExtOf(b)|]
  }

  /** A slice holds no character its string does not. */
  lemma SliceAvoids(s: string, c: char, i: nat, j: nat)
    requires i <= j <= |s| && c !in s
    ensures c !in s[i..j]
  {
  }

  /** Name and extension hold no separator when their base holds none. */
  lemma NameExtAvoid(b: string)
    requires '/' !in b
    ensures '/' !in NameOf(b) && '/' !in ExtOf(b)
  {
    SliceAvoids(b, '/', 0, |b| - |ExtOf(b)|);
    SliceAvoids(b, '/', |b| - |ExtOf(b)|, |b|);
  }

  /** The last separator of `x + "/" + y` is the one between them when `y` has none. */
  lemma LastSlashOfJoin(x: string, y: string)
    requires '/' !in y
    ensures '/' in x + "/" + y
    ensures LastIndex(x + "/" + y, '/') == |x|
  {
    var s := x + "/" + y;
    assert s[|x|] == '/';
  }

  /** Parsing `dir + "/" + base` gives back the directory and the base. The
      base must not be empty: `dir + "/"` ends in a separator, which Node strips
      before parsing. */
  lemma ParseJoined(dir: string, base: string)
    requires dir != "" && base != "" && '/' !in base
    ensures DirOf(dir + "/" + base) == dir
    ensures BaseOf(dir + "/" + base) == base
  {
    LastSlashOfJoin(dir, base);
    var s := dir + "/" + base;
    assert s[..|dir|] == dir;
    assert s[|dir| + 1..] == base;
  }

  /** A string with a separator past its first character is its directory, a
      separator and its base. */
  lemma DirBase(s: string)
    requires '/' in s && LastIndex(s, '/') > 0
    ensures s == DirOf(s) + "/" + BaseOf(s)
  {
    var k := LastIndex(s, '/');
    assert s == s[..k] + [s[k]] + s[k + 1..];
  }

  /** A string with a separator past its first character splits into the
      segments of its directory followed by its base. */
  lemma SplitDirBase(s: string)
    requires '/' in s && LastIndex(s, '/') > 0
    ensures Split(s) == Split(DirOf(s)) + [BaseOf(s)]
  {
    var dir, base := DirOf(s), BaseOf(s);
    var parts := Split(dir) + [base];
    DirBase(s);
    JoinSplit(dir);
    JoinAppend(Split(dir), [base]);
    assert Join(parts) == s;
    forall i | 0 <= i < |parts|
      ensures '/' !in parts[i]
    {
      if i < |parts| - 1 {
        assert parts[i] == Split(dir)[i];
      }
    }
    SplitJoin(parts);
  }

  /** A join of two or more parts holds a separator, so it is never empty. */
  lemma JoinHasSlash(parts: seq<string>)
    requires |parts| >= 2
    ensures '/' in Join(parts)
  {
    var s := Join(parts);
    assert s[|parts[0]|] == '/';
  }

  /** A name without dots and an extension that is empty or one dot followed by
      dot-free text parse back apart. */
  lemma SplitExtJoined(name: string, ext: string)
    requires name != "" && '.' !in name
    requires ext == "" || (ext[0] == '.' && '.' !in ext[1..])
    ensures ExtOf(name + ext) == ext
    ensures NameOf(name + ext) == name
  {
    var b := name + ext;
    if ext == "" {
      assert b == name;
    } else {
      assert b[|name|] == '.';
      var k := LastIndex(b, '.');
      assert b[0] == name[0] && name[0] != '.';
      assert b[k..] == ext;
    }
  }
}

=== FILE: paths.dfy ===
/**
 Relative paths of a sync pair.

 The engine passes relative paths around as strings (`"a/b/c"`, the empty
 string for the root); this module gives them their segment form
 (`["a", "b", "c"]`, `[]` for the root) and relates the two through the
 `split("/")` and `join("/")` of JavaScript strings.
 */
module Paths {

  /** A relative path as a sequence of entry names; `[]` is the sync root. */
  type Path = seq<string>

  /** A directory entry name as `readdir` reports it. Names holding a backslash
      are excluded: the engine rewrites `\` to `/` in the child's relative path,
      so such an entry is looked up under another, deeper path
      (`BackslashNameMisread`) and the model does not follow it there. */
  predicate ValidName(n: string) {
    n != "" && n != "." && n != ".." && '/' !in n && '\\' !in n
  }

  predicate ValidPath(p: Path) {
    forall i :: 0 <= i < |p| ==> ValidName(p[i])
  }

  function Child(p: Path, n: string): Path {
    p + [n]
  }

  function Parent(p: Path): Path
    requires p != []
  {
    p[..|p| - 1]
  }

  predicate IsPrefix(a: Path, b: Path) {
    |a| <= |b| && b[..|a|] == a
  }

  predicate IsStrictPrefix(a: Path, b: Path) {
    |a| < |b| && b[..|a|] == a
  }

  /** JavaScript `parts.join("/")`. */
  function Join(parts: seq<string>): string {
    if |parts| == 0 then ""
    else if |parts| == 1 then parts[0]
    else parts[0] + "/" + Join(parts[1..])
  }

  /** Index of the first `/` of `s`. */
  function FirstSlash(s: string): (k: nat)
    requires '/' in s
    ensures k < |s| && s[k] == '/'
    ensures '/' !in s[..k]
  {
    if s[0] == '/' then 0
    else
      assert s == [s[0]] + s[1..];
      var k := 1 + FirstSlash(s[1..]);
      assert s[..k] == [s[0]] + s[1..][..k - 1];
      k
  }

  /** JavaScript `s.split("/")`: always at least one part, and no part holds a separator. */
  function Split(s: string): (parts: seq<string>)
    ensures |parts| >= 1
    ensures forall i :: 0 <= i < |parts| ==> '/' !in parts[i]
    decreases |s|
  {
    if '/' in s then
      var k := FirstSlash(s);
      [s[..k]] + Split(s[k + 1..])
    else
      [s]
  }

  /** `itemPath.replace(/\\/g, "/")`: every backslash becomes a slash, nothing else changes. */
  function Normalize(s: string): (r: string)
    ensures |r| == |s|
    ensures '\\' !in r
    ensures forall i :: 0 <= i < |s| && s[i] != '\\' ==> r[i] == s[i]
    ensures forall i :: 0 <= i < |s| && s[i] == '\\' ==> r[i] == '/'
  {
    seq(|s|, i requires 0 <= i < |s| => if s[i] == '\\' then '/' else s[i])
  }

  /** The segments a relative path string names: the empty string is the root. */
  function ParsePath(s: string): Path {
    if s == "" then [] else Split(s)
  }

  /** The relative path of a child entry, `${itemPath}${itemPath ? "/" : ""}${file}`. */
  function ChildRel(rel: string, name: string): string {
    rel + (if rel == "" then "" else "/") + name
  }

  /** Strings the engine accepts as a relative path. */
  predicate ValidRel(s: string) {
    ValidPath(ParsePath(s))
  }

  lemma {:induction false} FirstSlashOfJoin(x: string, y: string)
    requires '/' !in x
    ensures '/' in x + "/" + y
    ensures FirstSlash(x + "/" + y) == |x|
  {
    var s := x + "/" + y;
    assert s[|x|] == '/';
  }

  /** Splitting a join gives back the parts, when no part holds a separator. */
  lemma {:induction false} SplitJoin(parts: seq<string>)
    requires |parts| >= 1
    requires forall i :: 0 <= i < |parts| ==> '/' !in parts[i]
    ensures Split(Join(parts)) == parts
    decreases |parts|
  {
    if |parts| > 1 {
      var rest := Join(parts[1..]);
      var s := parts[0] + "/" + rest;
      assert Join(parts) == s;
      FirstSlashOfJoin(parts[0], rest);
      var k := |parts[0]|;
      assert s[..k] == parts[0];
      assert s[k + 1..] == rest;
      assert Split(s) == [parts[0]] + Split(rest);
      assert forall i :: 0 <= i < |parts| - 1 ==> parts[1..][i] == parts[i + 1];
      SplitJoin(parts[1..]);
      assert parts == [parts[0]] + parts[1..];
    }
  }

  /** Joining a split gives back the string. */
  lemma {:induction false} JoinSplit(s: string)
    ensures Join(Split(s)) == s
    decreases |s|
  {
    if '/' in s {
      var k := FirstSlash(s);
      var tail := Split(s[k + 1..]);
      JoinSplit(s[k + 1..]);
      var parts := [s[..k]] + tail;
      assert parts[1..] == tail;
      assert Join(parts) == s[..k] + "/" + s[k + 1..];
      assert s == s[..k] + "/" + s[k + 1..];
    }
  }

  /** Joining two non-empty part lists puts one separator between them. */
  lemma {:induction false} JoinAppend(a: seq<string>, b: seq<string>)
    requires |a| >= 1 && |b| >= 1
    ensures Join(a + b) == Join(a) + "/" + Join(b)
    decreases |a|
  {
    if |a| == 1 {
      assert (a + b)[1..] == b;
    } else {
      JoinAppend(a[1..], b);
      assert (a + b)[1..] == a[1..] + b;
    }
  }

  /** A character that is no separator and occurs in no part does not occur in the join. */
  lemma {:induction false} JoinAvoids(parts: seq<string>, c: char)
    requires c != '/'
    requires forall i :: 0 <= i < |parts| ==> c !in parts[i]
    ensures c !in Join(parts)
    decreases |parts|
  {
    if |parts| > 1 {
      JoinAvoids(parts[1..], c);
    }
  }

  /** The relative string of a valid path is empty exactly at the root. */
  lemma {:induction false} JoinEmpty(p: Path)
    requires ValidPath(p)
    ensures Join(p) == "" <==> p == []
  {
    if |p| == 1 {
      assert ValidName(p[0]);
    } else if |p| > 1 {
      assert ValidName(p[0]);
      assert |Join(p)| >= |p[0]|;
    }
  }

  /** Parsing the relative string of a valid path gives back the path. */
  lemma ParseJoin(p: Path)
    requires ValidPath(p)
    ensures ParsePath(Join(p)) == p
    ensures ValidRel(Join(p))
  {
    JoinEmpty(p);
    if p != [] {
      SplitJoin(p);
    }
  }

  /** The engine's child string `itemPath + "/" + name` (no separator at the root)
      is the relative string of the child path. */
  lemma ChildRelJoin(p: Path, n: string)
    requires ValidPath(p) && ValidName(n)
    ensures ChildRel(Join(p), n) == Join(Child(p, n))
  {
    JoinEmpty(p);
    if p != [] {
      JoinAppend(p, [n]);
    }
  }

  /** The relative string of a valid path holds no backslash, so the
      normalisation step leaves it unchanged. */
  lemma NormalizeJoin(p: Path)
    requires ValidPath(p)
    ensures Normalize(Join(p)) == Join(p)
  {
    JoinAvoids(p, '\\');
  }

  /** Why names holding a backslash are left out of the trees: the child path
      string of such a name, once its backslashes are rewritten, names another,
      deeper entry. For a file `a\b` in the directory `x`, `syncItem("x/a\b")`
      looks up and acts on `x/a/b` instead. */
  lemma BackslashNameMisread()
    ensures ChildRel("x", "a\\b") == "x/a\\b"
    ensures ParsePath(Normalize(ChildRel("x", "a\\b"))) == ["x", "a", "b"]
    ensures ParsePath(Normalize(ChildRel("x", "a\\b"))) != Child(["x"], "a\\b")
  {
    var raw := ChildRel("x", "a\\b");
    assert raw == "x/a\\b";
    var norm := Normalize(raw);
    assert norm == "x/a/b" by {
      assert |norm| == 5;
      assert norm[0] == 'x' && norm[1] == '/' && norm[2] == 'a' && norm[3] == '/' && norm[4] == 'b';
    }
    var parts := ["x", "a", "b"];
    assert Split(norm) == parts by {
      assert Join(parts) == "x/a/b";
      assert forall i :: 0 <= i < |parts| ==> '/' !in parts[i];
      SplitJoin(parts);
    }
  }
}

=== FILE: rename.dfy ===
/**
 The target name of a configured rename: both the entry and the requested
 name are resolved to absolute paths and parsed. The entry keeps its
 directory; a requested name of `*` keeps the entry's own name, and an empty
 requested extension keeps the entry's own extension.
 */
module Rename {
  import opened PathParse

  /** A path as `paths.resolve` returns it: absolute, without a trailing separator. */
  predicate Resolved(s: string) {
    |s| >= 1 && s[0] == '/' && NoTrailingSlash(s)
  }

  /** The name part the target takes. */
  function TargetName(src: string, dest: string): string {
    var destName := NameOf(BaseOf(dest));
    if destName == "*" then NameOf(BaseOf(src)) else destName
  }

  /** The extension the target takes: `destPath.ext || srcPath.ext`. */
  function TargetExt(src: string, dest: string): string {
    var destExt := ExtOf(BaseOf(dest));
    if destExt != "" then destExt else ExtOf(BaseOf(src))
  }

  /** `${srcPath.dir}/${destName}${destPath.ext || srcPath.ext}`. The target
      stays in the entry's directory, under the chosen name and extension, as
      long as those are not both empty (the target would then end in a
      separator). */
  function RenameTarget(src: string, dest: string): (r: string)
    requires Resolved(src) && Resolved(dest)
    ensures TargetName(src, dest) + TargetExt(src, dest) != "" ==>
      DirOf(r) == DirOf(src) && BaseOf(r) == TargetName(src, dest) + TargetExt(src, dest)
  {
    var b := TargetName(src, dest) + TargetExt(src, dest);
    TargetAvoids(src, dest);
    AbsoluteDir(src);
    assert b != "" ==> DirOf(DirOf(src) + "/" + b) == DirOf(src) && BaseOf(DirOf(src) + "/" + b) == b by {
      if b != "" {
        ParseJoined(DirOf(src), b);
      }
    }
    DirOf(src) + "/" + b
  }

  /** The chosen name and extension hold no separator. */
  lemma TargetAvoids(src: string, dest: string)
    ensures '/' !in TargetName(src, dest) + TargetExt(src, dest)
  {
    NameExtAvoid(BaseOf(src));
    NameExtAvoid(BaseOf(dest));
  }

  /** An absolute path has a non-empty directory part. */
  lemma AbsoluteDir(s: string)
    requires Resolved(s)
    ensures DirOf(s) != ""
  {
    assert '/' in s by {
      assert s[0] == '/';
    }
  }

  /** A requested `*` with no extension renames the entry to its own name. */
  lemma StarKeepsBase(src: string, dest: string)
    requires Resolved(src) && Resolved(dest) && src != "/"
    requires BaseOf(dest) == "*"
    ensures BaseOf(RenameTarget(src, dest)) == BaseOf(src)
    ensures DirOf(RenameTarget(src, dest)) == DirOf(src)
  {
    assert '.' !in "*";
    NonRootBase(src);
  }

  /** A requested `*.ext` keeps the entry's name and replaces its extension. */
  lemma StarExtension(src: string, dest: string, ext: string)
    requires Resolved(src) && Resolved(dest)
    requires BaseOf(dest) == "*" + ext
    requires |ext| >= 2 && ext[0] == '.' && '.' !in ext[1..]
    ensures BaseOf(RenameTarget(src, dest)) == NameOf(BaseOf(src)) + ext
  {
    SplitExtJoined("*", ext);
    assert TargetExt(src, dest) == ext;
  }

  /** A requested name without extension keeps the entry's extension. */
  lemma PlainNameKeepsExtension(src: string, dest: string)
    requires Resolved(src) && Resolved(dest) && dest != "/"
    requires '.' !in BaseOf(dest) && BaseOf(dest) != "*"
    ensures BaseOf(RenameTarget(src, dest)) == BaseOf(dest) + ExtOf(BaseOf(src))
  {
    assert ExtOf(BaseOf(dest)) == "";
    assert TargetName(src, dest) == BaseOf(dest) by {
      assert NameOf(BaseOf(dest)) == BaseOf(dest);
    }
    NonRootBase(dest);
  }

  /** A resolved path other than the root has a non-empty base name. */
  lemma NonRootBase(s: string)
    requires Resolved(s) && s != "/"
    ensures BaseOf(s) != ""
  {
    assert s[0] == '/';
    var k := LastIndex(s, '/');
    assert k < |s| - 1;
    assert BaseOf(s) == s[k + 1..];
  }
}

=== FILE: rules.dfy ===
/**
 The decisions `syncItem` takes for a single path, stated from the caller's
 side: when a file is copied, when nothing happens, and which destination
 entries the bidirectional clean-up removes.
 */
module Rules {
  import opened Paths
  import opened FileTree
  import opened Ignore
  import opened CopyRetry
  import opened Deletion
  import opened Engine

  /** A source file is copied exactly when its destination is missing or strictly
      older; otherwise nothing changes and nothing is reported. A copy reports
      once, as copied or as failed. */
  lemma FileRule(s: Tree, d: Tree, cfg: Config, env: Env, p: Path)
    requires WellFormed(s) && WellFormed(d) && KindsAgree(s, d)
    requires p in s && s[p].File?
    ensures var r := Reconcile(s, d, cfg, env, p);
      && ((p !in d || s[p].mtime > d[p].mtime) <==> r.log != [])
      && (r.log == [] ==> r.dest == d)
      && (r.log != [] ==> r.log == [FileCopied(p)] || r.log == [CopyFailed(p)])
      && (r.log == [FileCopied(p)] <==> r.log != [] && InDirectory(d, p) && CopySucceeds(FailuresAt(env, p)))
      && (r.log == [FileCopied(p)] ==> r.dest == d[p := File(env.stamp(s[p].mtime))])
      && (r.log == [CopyFailed(p)] ==> r.dest == d)
  {
  }

  /** A path missing on both sides is left alone. */
  lemma AbsentBothSides(s: Tree, d: Tree, cfg: Config, env: Env, p: Path)
    requires WellFormed(s) && WellFormed(d) && KindsAgree(s, d)
    requires p !in s && p !in d
    ensures Reconcile(s, d, cfg, env, p) == Outcome(d, [])
  {
    var r := Reconcile(s, d, cfg, env, p);
    assert r == DeleteItem(d, p);
  }

  /** A source path that has vanished takes its whole destination subtree with
      it, children reported before their directory, and nothing else changes. */
  lemma AbsentSourceDeletes(s: Tree, d: Tree, cfg: Config, env: Env, p: Path)
    requires WellFormed(s) && WellFormed(d) && KindsAgree(s, d)
    requires p !in s
    ensures var r := Reconcile(s, d, cfg, env, p);
      && (forall q :: q in d ==> (q in r.dest <==> !IsPrefix(p, q)))
      && (forall q :: q in r.dest ==> q in d && r.dest[q] == d[q])
      && LoggedPaths(r.log) == Subtree(d, p)
      && ChildrenFirst(r.log)
      && DeletionLog(d, r.log)
  {
    var r := Reconcile(s, d, cfg, env, p);
    assert r == DeleteItem(d, p);
  }

  /** With the clean-up on, a destination entry in a synced directory whose
      source counterpart is missing is gone afterwards, even one the ignore
      test would skip. */
  lemma OrphanRemoved(s: Tree, d: Tree, cfg: Config, env: Env, p: Path, n: string)
    requires WellFormed(s) && WellFormed(d) && KindsAgree(s, d)
    requires cfg.bidir && p in s && s[p].Dir?
    requires Child(p, n) !in s
    ensures Child(p, n) !in Reconcile(s, d, cfg, env, p).dest
  {
    var r := Reconcile(s, d, cfg, env, p);
    assert n !in ChildNames(s, p);
  }

  /** With the clean-up off, destination entries without a source counterpart
      survive, as long as the path itself exists in the source. */
  lemma NoCleanupKeeps(s: Tree, d: Tree, cfg: Config, env: Env, p: Path, q: Path)
    requires WellFormed(s) && WellFormed(d) && KindsAgree(s, d)
    requires !cfg.bidir && p in s
    requires q in d && q !in s
    ensures q in Reconcile(s, d, cfg, env, p).dest
    ensures Reconcile(s, d, cfg, env, p).dest[q] == d[q]
  {
  }

  /** The subtree at `c` and the entry `Child(p, m)` of a sibling name lie
      apart: neither path is a prefix of the other below `c`. */
  lemma SiblingApart(p: Path, m: string, c: Path, q: Path)
    requires IsStrictPrefix(p, c) && c[|p|] != m && IsPrefix(c, q)
    ensures !IsPrefix(Child(p, m), q) && !IsPrefix(q, Child(p, m))
  {
    assert q[|p|] == c[|p|];
    assert Child(p, m)[|p|] == m;
  }

  /** A pass over `p` leaves the destination subtree at an ignored source
      path `c` below it as it was: `syncItem` is called on every entry on the
      way down to `c`, and the call on `c` itself returns at the ignore test.
      With the clean-up on, `c` must exist in the source, or the clean-up of
      its directory removes it. */
  lemma {:induction false} IgnoredKeptByReconcile(s: Tree, d: Tree, cfg: Config, env: Env, p: Path, c: Path)
    requires WellFormed(s) && WellFormed(d) && KindsAgree(s, d)
    requires p in s && IsStrictPrefix(p, c)
    requires Ignored(cfg, Join(c))
    requires c in s || !cfg.bidir
    ensures SameBelow(d, Reconcile(s, d, cfg, env, p).dest, c)
    decreases Below(s, p), 1
  {
    var r := Reconcile(s, d, cfg, env, p);
    if s[p].Dir? {
      var made := if p in d then Outcome(d, []) else MakeDir(s, d, p);
      var visited := VisitChildren(s, made.dest, cfg, env, p, ChildNames(s, p));
      var pruned := if cfg.bidir then Prune(s, visited.dest, p, ChildNames(visited.dest, p)) else Outcome(visited.dest, []);
      assert r.dest == pruned.dest;
      assert SameBelow(d, made.dest, c) by {
        forall q | IsPrefix(c, q)
          ensures (q in d <==> q in made.dest) && (q in d ==> d[q] == made.dest[q])
        {
          assert !IsPrefix(q, p);
        }
      }
      assert SameBelow(made.dest, visited.dest, c) by {
        IgnoredKeptByVisit(s, made.dest, cfg, env, p, ChildNames(s, p), c);
      }
      assert SameBelow(visited.dest, pruned.dest, c) by {
        if cfg.bidir {
          var n := c[|p|];
          ChildOnTheWay(s, p, c);
          assert n !in Orphans(s, p, ChildNames(visited.dest, p));
          KeptSubtree(visited.dest, pruned.dest, p, Orphans(s, p, ChildNames(visited.dest, p)), c);
        }
      }
      SameBelowTrans(d, made.dest, visited.dest, c);
      SameBelowTrans(d, visited.dest, pruned.dest, c);
    } else {
      assert SameBelow(d, r.dest, c) by {
        FileKeepsBelow(s, d, cfg, env, p, c);
      }
    }
  }

  /** The child of `p` on the way down to a source entry `c` exists in the source. */
  lemma ChildOnTheWay(s: Tree, p: Path, c: Path)
    requires WellFormed(s) && c in s && IsStrictPrefix(p, c)
    ensures Child(p, c[|p|]) in s
  {
    assert Child(p, c[|p|]) == c[..|p| + 1];
    if |p| + 1 < |c| {
      AncestorIsDir(s, c, |p| + 1);
    } else {
      assert c[..|p| + 1] == c;
    }
  }

  /** Below a source file nothing exists in the source, and the file's pass
      touches only the file itself. */
  lemma FileKeepsBelow(s: Tree, d: Tree, cfg: Config, env: Env, p: Path, c: Path)
    requires WellFormed(s) && WellFormed(d) && KindsAgree(s, d)
    requires p in s && s[p].File? && IsStrictPrefix(p, c)
    ensures SameBelow(d, Reconcile(s, d, cfg, env, p).dest, c)
  {
    var r := Reconcile(s, d, cfg, env, p);
    if p !in d || s[p].mtime > d[p].mtime {
      assert r == CopyFile(s, d, env, p);
      forall q | IsPrefix(c, q)
        ensures q != p
      {
      }
    } else {
      assert r.dest == d;
    }
  }

  /** The same for the loop over the listed children of `p`. */
  lemma {:induction false} IgnoredKeptByVisit(s: Tree, d: Tree, cfg: Config, env: Env, p: Path, names: set<string>, c: Path)
    requires WellFormed(s) && WellFormed(d) && KindsAgree(s, d)
    requires p in d && d[p] == Dir
    requires names <= ChildNames(s, p)
    requires IsStrictPrefix(p, c)
    requires Ignored(cfg, Join(c))
    requires c in s || !cfg.bidir
    ensures SameBelow(d, VisitChildren(s, d, cfg, env, p, names).dest, c)
    decreases Below(s, p), 0, names
  {
    if names != {} {
      var m := Pick(names);
      var cm := Child(p, m);
      BelowShrinks(s, p, cm);
      var r1 := if Ignored(cfg, Join(cm)) then Outcome(d, []) else Reconcile(s, d, cfg, env, cm);
      ChildStep(d, r1, p, m);
      assert SameBelow(d, r1.dest, c) by {
        if c[|p|] != m {
          forall q | IsPrefix(c, q)
            ensures (q in d <==> q in r1.dest) && (q in d ==> d[q] == r1.dest[q])
          {
            SiblingApart(p, m, c, q);
          }
        } else if !Ignored(cfg, Join(cm)) {
          assert cm == c[..|p| + 1];
          assert cm != c;
          IgnoredKeptByReconcile(s, d, cfg, env, cm, c);
        }
      }
      IgnoredKeptByVisit(s, r1.dest, cfg, env, p, names - {m}, c);
    }
  }

  /** Removing the subtrees of `orphans` keeps a subtree under any other name. */
  lemma KeptSubtree(d: Tree, d': Tree, p: Path, orphans: set<string>, c: Path)
    requires CutUnder(d, d', p, orphans)
    requires IsStrictPrefix(p, c) && c[|p|] !in orphans
    ensures SameBelow(d, d', c)
  {
    forall q | IsPrefix(c, q)
      ensures !UnderAny(p, orphans, q)
    {
      assert q[|p|] == c[|p|];
    }
  }

  /** The initial `syncItem("", sync)` keeps the destination's own copy of every
      ignored entry that exists in the source (with the clean-up off, of every
      ignored path), for instance a local `config.json` the ignore list names. */
  lemma IgnoredKeptBySync(s: Tree, d: Tree, cfg: Config, env: Env, c: Path)
    requires WellFormed(s) && WellFormed(d) && KindsAgree(s, d)
    requires [] in s && c != []
    requires Ignored(cfg, Join(c))
    requires c in s || !cfg.bidir
    ensures SameBelow(d, SyncItem(s, d, cfg, env, "").dest, c)
  {
    if !Ignored(cfg, "") {
      assert ParsePath(Normalize("")) == [];
      assert IsStrictPrefix([], c);
      IgnoredKeptByReconcile(s, d, cfg, env, [], c);
    }
  }
}

=== FILE: tree.dfy ===
/**
 The file trees on both sides of a sync pair, as pure data.

 A tree maps the relative path of every entry that exists to its kind; a file
 carries its modification time. The events stand for what the engine reports
 on its `fsync_log` channel.
 */
module FileTree {
  import opened Paths

  datatype Node = Dir | File(mtime: nat)

  type Tree = map<Path, Node>

  /** What the engine reports: directory creation, file copy (success or the
      give-up report after the retry budget), directory and file deletion. */
  datatype Event =
    | DirCreated(path: Path)
    | FileCopied(path: Path)
    | CopyFailed(path: Path)
    | DirDeleted(path: Path)
    | FileDeleted(path: Path)

  /** The destination tree after an operation, with the events it reported. */
  datatype Outcome = Outcome(dest: Tree, log: seq<Event>)

  /** The set of paths a log reports on. */
  function LoggedPaths(log: seq<Event>): set<Path> {
    set k | 0 <= k < |log| :: log[k].path
  }

  lemma LoggedPathsSingle(e: Event)
    ensures LoggedPaths([e]) == {e.path}
  {
    assert [e][0] == e;
  }

  lemma LoggedPathsAppend(a: seq<Event>, b: seq<Event>)
    ensures LoggedPaths(a + b) == LoggedPaths(a) + LoggedPaths(b)
  {
    var ab := a + b;
    forall x | x in LoggedPaths(ab)
      ensures x in LoggedPaths(a) + LoggedPaths(b)
    {
      var k :| 0 <= k < |ab| && ab[k].path == x;
      if k >= |a| {
        assert ab[k] == b[k - |a|];
        assert x in LoggedPaths(b);
      } else {
        assert ab[k] == a[k];
        assert x in LoggedPaths(a);
      }
    }
    forall x | x in LoggedPaths(a)
      ensures x in LoggedPaths(ab)
    {
      var k :| 0 <= k < |a| && a[k].path == x;
      assert ab[k] == a[k];
    }
    forall x | x in LoggedPaths(b)
      ensures x in LoggedPaths(ab)
    {
      var k :| 0 <= k < |b| && b[k].path == x;
      assert ab[k + |a|] == b[k];
    }
  }

  /** `q` was added, removed or replaced between `d` and `d'`. */
  predicate Changed(d: Tree, d': Tree, q: Path) {
    (q in d) != (q in d') || (q in d && q in d' && d[q] != d'[q])
  }

  /** Every entry that differs between `d` and `d'` has its event in `log`: a
      removed entry a deletion, a new directory a creation, a new or replaced
      file a copy. */
  ghost predicate Reported(d: Tree, d': Tree, log: seq<Event>) {
    forall q :: Changed(d, d', q) ==>
      if q !in d' then DirDeleted(q) in log || FileDeleted(q) in log
      else if d'[q] == Dir then DirCreated(q) in log
      else FileCopied(q) in log
  }

  /** Two steps that report their changes report the changes of both: an entry
      the second step leaves alone is where the first step put it. */
  lemma ReportedCompose(d0: Tree, d1: Tree, d2: Tree, a: seq<Event>, b: seq<Event>)
    requires Reported(d0, d1, a) && Reported(d1, d2, b)
    ensures Reported(d0, d2, a + b)
  {
    forall q | Changed(d0, d2, q)
      ensures if q !in d2 then DirDeleted(q) in a + b || FileDeleted(q) in a + b
              else if d2[q] == Dir then DirCreated(q) in a + b
              else FileCopied(q) in a + b
    {
      if !Changed(d1, d2, q) {
        assert Changed(d0, d1, q);
      }
    }
  }

  /** `d1` and `d2` agree at and below `p`. */
  ghost predicate SameBelow(d1: Tree, d2: Tree, p: Path) {
    forall q :: IsPrefix(p, q) ==> (q in d1 <==> q in d2) && (q in d1 ==> d1[q] == d2[q])
  }

  lemma SameBelowTrans(d1: Tree, d2: Tree, d3: Tree, p: Path)
    requires SameBelow(d1, d2, p) && SameBelow(d2, d3, p)
    ensures SameBelow(d1, d3, p)
  {
  }

  /** A tree a real file system can hold: the root, when present, is a directory,
      every other entry sits in a directory of the same tree, and all names are
      entry names. */
  predicate WellFormed(t: Tree) {
    && ([] in t ==> t[[]] == Dir)
    && (forall q :: q in t ==> ValidPath(q))
    && (forall q {:trigger InDirectory(t, q)} :: q in t ==> InDirectory(t, q))
  }

  /** A non-root entry sits in a directory of the tree. */
  predicate InDirectory(t: Tree, q: Path) {
    q != [] ==> Parent(q) in t && t[Parent(q)] == Dir
  }

  /** An existing destination entry has the same kind as its source counterpart.
      The engine assumes this at every path, ignored ones included. */
  predicate KindsAgree(s: Tree, d: Tree) {
    forall q :: q in s && q in d ==> s[q].Dir? == d[q].Dir?
  }

  /** The entries strictly below `p`; the measure every recursion over a tree decreases. */
  function Below(t: Tree, p: Path): set<Path> {
    set q | q in t && IsStrictPrefix(p, q)
  }

  /** The names `readdir(p)` lists. */
  function ChildNames(t: Tree, p: Path): (names: set<string>)
    ensures forall n :: n in names <==> Child(p, n) in t
  {
    var names := set q | q in t && |q| == |p| + 1 && q[..|p|] == p :: q[|p|];
    assert forall n :: Child(p, n) in t ==> Child(p, n)[|p|] == n && Child(p, n)[..|p|] == p;
    assert forall q :: q in t && |q| == |p| + 1 && q[..|p|] == p ==> q == Child(p, q[|p|]);
    names
  }

  /** Some entry of a non-empty listing; the order `readdir` lists entries in is
      not specified, so the model commits to none. */
  ghost function Pick(names: set<string>): (n: string)
    requires names != {}
    ensures n in names
  {
    var n :| n in names; n
  }

  /** In a well-formed tree every proper prefix of an entry is a directory of the tree. */
  lemma {:induction false} AncestorIsDir(t: Tree, q: Path, i: nat)
    requires WellFormed(t)
    requires q in t && i < |q|
    ensures q[..i] in t && t[q[..i]] == Dir
    decreases |q| - i
  {
    if i + 1 == |q| {
      assert InDirectory(t, q);
      assert Parent(q) == q[..i];
    } else {
      AncestorIsDir(t, q, i + 1);
      var a := q[..i + 1];
      assert InDirectory(t, a);
      assert a != [] && Parent(a) == q[..i];
    }
  }

  /** The same, for every entry and prefix at once. */
  lemma AncestorsAreDirs(t: Tree)
    requires WellFormed(t)
    ensures forall q, i :: q in t && 0 <= i < |q| ==> q[..i] in t && t[q[..i]] == Dir
  {
    forall q, i | q in t && 0 <= i < |q|
      ensures q[..i] in t && t[q[..i]] == Dir
    {
      AncestorIsDir(t, q, i);
    }
  }

  /** A child's subtree is strictly smaller than its parent's. */
  lemma BelowShrinks(t: Tree, p: Path, c: Path)
    requires c in t && IsStrictPrefix(p, c)
    ensures Below(t, c) < Below(t, p)
  {
    forall q | q in Below(t, c)
      ensures q in Below(t, p)
    {
      assert q[..|p|] == q[..|c|][..|p|];
    }
    assert c in Below(t, p) && c !in Below(t, c);
  }
}
